=== FILE: README.md ===
# Back in the game: a model of the clinician, patient and client applications

Back in the game is a Unity application for balance rehabilitation in virtual
reality. A **patient** headset streams the poses of its tracked objects, frame
by frame. A **clinician** station, or a stand-alone **client**, connects to it.
The clinician follows a scripted **experiment** round by round, asks the
patient's world to change scene or to show the Y-frame, moves its own copies of
the objects, and records every received frame to a CSV file with the
**CSV writer**. A **scene manager** shows exactly one scene. An on-screen
**keyboard** edits text fields.

This project models that core in Dafny as immutable datatypes and pure
functions, and proves properties about it:

- `optional.dfy`: the `Option` type, standing for C#'s `null`.
- `text.dfy`: the string primitives the source relies on: decimal digits,
  `ToString` of integers, zero padding, `Split` and `string.Join`, `Trim`, and
  ASCII `ToUpper`.
- `protocol.dfy`: `PacketType` and the protocol version.
- `packets.dfy`: a packet as a sequence of typed fields, the typed readers, and
  the pose-stream layout.
- `csv_writer.dfy`: `CsvWriter` and its `DataEntry`: header and row text, the
  start-button check, and the recording lifecycle with its 100-frame batching.
  The file system is a map from path to lines.
- `experiment.dfy`: `Experiment` and `Round`: validation, the round label, the
  PascalCase conversion and the per-round file name.
- `experiment_loader.dfy`: `ExperimentLoader`: loading, round navigation, and
  the round-change notification.
- `endpoints.dfy`: the server-address pattern that both connecting
  applications use, and the parse of its groups.
- `connect_loop.dfy`: the retry loops of the two connecting coroutines.
- `clinician.dfy`, `client.dfy`, `patient.dfy`: the three networking
  behaviours.
- `scene_manager.dfy`, `keyboard.dfy`: `SceneManager` and `KeyBoard`.
- `session.dfy`: cross-component properties. The patient's shown address is
  accepted by the clinician. A patient's frame stream ends up as rows of the
  clinician's CSV file.

The model takes the following as parameters instead of computing them:

- Number formatting (`float.ToString("F6")`) is a function `fmt: real -> string`.
- A transport failure in a send is a boolean parameter.
- The coroutine's view of the connection flags is a sequence of observed flag
  values, one per check of the loop condition.
- The frame step `Time.fixedDeltaTime` is a parameter of each tick.

## Model

| member | source | states |
|---|---|---|
| Protocol.ToInt | Assets/RealtimeNetworking/Common/PacketType.cs:9-15 | Every packet kind is written as a discriminant in 0..5 other than 1. |
| Protocol.FromInt | Assets/RealtimeNetworking/Common/PacketType.cs:9-15 | A received integer selects a named kind exactly when it is 0 or 2..5. That kind writes back as the same integer. |
| Protocol.FromIntToInt | Assets/RealtimeNetworking/Common/PacketType.cs:9-15 | Decoding a written discriminant gives back the kind. |
| Protocol.ToIntInjective | Assets/RealtimeNetworking/Common/PacketType.cs:9-15 | Distinct kinds never share a discriminant. |
| Protocol.Discriminants | Assets/RealtimeNetworking/Common/PacketType.cs:5-15 | The version is "1.0.0". The discriminants are Version 0, CsvWriterDataEntry 2, Int 3, ChangeScene 4, ShowYFrame 5. |
| Packets.ReadInt | Assets/RealtimeNetworking/RealtimeNetworkingClinician.cs:141 | A read succeeds exactly on an integer field at the front, and returns it with the remaining fields. |
| Packets.ReadFloat | Assets/RealtimeNetworking/RealtimeNetworkingClinician.cs:176 | A read succeeds exactly on a float field at the front, and returns it with the remaining fields. |
| Packets.ReadBool | Assets/RealtimeNetworking/RealtimeNetworkingClinician.cs:170 | A read succeeds exactly on a boolean field at the front, and returns it with the remaining fields. |
| Packets.ReadString | Assets/RealtimeNetworking/RealtimeNetworkingClinician.cs:146 | A read succeeds exactly on a string field at the front, and returns it with the remaining fields. |
| Packets.ReadVector3 | Assets/RealtimeNetworking/RealtimeNetworkingClinician.cs:181-182 | A read succeeds exactly on a vector field at the front, and returns it with the remaining fields. |
| Packets.PoseFields | Assets/RealtimeNetworking/RealtimeNetworkingPatient.cs:46-55 | Each object contributes two fields, position then rotation. |
| Packets.PoseFieldsAt | Assets/RealtimeNetworking/RealtimeNetworkingPatient.cs:46-55 | Object k's position is field 2k and its rotation is field 2k+1. |
| Packets.EntryPacketLayout | Assets/RealtimeNetworking/RealtimeNetworkingPatient.cs:43-55 | A pose-stream packet is the kind 2 (CsvWriterDataEntry), the timestamp, then a position and a rotation per object, in list order. |
| Packets.ReadPoses | Assets/RealtimeNetworking/RealtimeNetworkingClinician.cs:179-188 | A successful read of n poses consumes exactly the fields of those n poses. |
| Packets.ReadPosesOfPoseFields | Assets/RealtimeNetworking/RealtimeNetworkingClinician.cs:179-188 | Reading as many poses as were written gives them back and leaves the rest untouched. |
| Packets.ReadPosesTooMany | Assets/RealtimeNetworking/RealtimeNetworkingClinician.cs:179-188 | Expecting more objects than were written is a read failure. |
| Packets.ReadPosesTooFew | Assets/RealtimeNetworking/RealtimeNetworkingClinician.cs:179-188 | Expecting fewer objects reads the first ones and leaves the others' fields unread. |
| CsvWriter.LineTextIsJoin | Assets/RealtimeNetworking/Common/CsvWriter.cs:76-94 | The line built cell by cell with "," is the comma-join of its cells. |
| CsvWriter.ColumnsAt | Assets/RealtimeNetworking/Common/CsvWriter.cs:76-94 | Per-object cells come in groups of six, in object order. |
| CsvWriter.HeaderShape | Assets/RealtimeNetworking/Common/CsvWriter.cs:76-83 | The header has 1 + 6n cells. The first is "Frame"; then each object gives `name_Pos.X` … `name_Rot.Z`. |
| CsvWriter.HeaderFields | Assets/RealtimeNetworking/Common/CsvWriter.cs:76-83 | With comma-free object names, the header line splits back into exactly its cells. |
| CsvWriter.RowShape | Assets/RealtimeNetworking/Common/CsvWriter.cs:85-94 | A row is the timestamp, then three position and three rotation numbers per pose. |
| CsvWriter.RowFields | Assets/RealtimeNetworking/Common/CsvWriter.cs:85-94 | When no number's text holds a comma, a row splits back into exactly its 1 + 6·poses cells. |
| CsvWriter.NewWriter | Assets/RealtimeNetworking/Common/CsvWriter.cs:97-105 | After Start, nothing is open, both buttons are disabled and stop is hidden. |
| CsvWriter.FilePathPlain | Assets/RealtimeNetworking/Common/CsvWriter.cs:44 | For ordinary names the file is `dataDir/subject/trial.csv`. |
| CsvWriter.CheckDataPath | Assets/RealtimeNetworking/Common/CsvWriter.cs:107-128 | Recording is allowed iff subject and trial are non-empty and the file does not exist. The caption names the first failing check, in that order. |
| CsvWriter.ValidateDataPath | Assets/RealtimeNetworking/Common/CsvWriter.cs:107-128 | Only the start button's interactability and caption change. |
| CsvWriter.StartRecording | Assets/RealtimeNetworking/Common/CsvWriter.cs:130-150 | The file at the path is (re)created with the header line. Every other file is untouched. The start event is emitted with the path. The buttons switch to stop, and the start caption is kept. The directory, subject, trial, object names and log are unchanged. |
| CsvWriter.EnabledStartKeepsFiles | Assets/RealtimeNetworking/Common/CsvWriter.cs:107-150 | When the start button was enabled, starting overwrites no existing file. |
| CsvWriter.PreventManualStopping | Assets/RealtimeNetworking/Common/CsvWriter.cs:160-164 | While recording, only the stop button's interactability changes, to false. Otherwise nothing changes. |
| CsvWriter.FlushDataToFile | Assets/RealtimeNetworking/Common/CsvWriter.cs:214-228 | The pending rows are appended to the open file, in order. The queue and frame count reset. What the file will hold is unchanged, and so are other files. |
| CsvWriter.AddData | Assets/RealtimeNetworking/Common/CsvWriter.cs:189-212 | When not recording, nothing changes. Otherwise the row is appended to the pending content, and the 100th pending row flushes all 100 to the end of the open file. A pose count unequal to the object count logs the mismatch message. Other files, the events, the buttons, the data directory, subject and trial are unchanged. |
| CsvWriter.StopRecording | Assets/RealtimeNetworking/Common/CsvWriter.cs:166-187 | Pending rows are flushed and the file closed. This is safe with nothing open. The stop event is emitted, and the start button shows the path check, both its interactability and its caption. The directory, subject, trial, object names and log are unchanged, so the path stays the same. |
| CsvWriter.StopShowsExistingFile | Assets/RealtimeNetworking/Common/CsvWriter.cs:166-187 | After stopping the current path, the start button is disabled on "Fichier existant". |
| CsvWriter.AddAllAppends | Assets/RealtimeNetworking/Common/CsvWriter.cs:189-228 | Any sequence of added rows is appended to file plus queue, with nothing lost or reordered. |
| CsvWriter.AddDataCounts | Assets/RealtimeNetworking/Common/CsvWriter.cs:189-212 | One row either joins the queue or completes a batch of 100 that moves to the file. |
| CsvWriter.AddAllBatches | Assets/RealtimeNetworking/Common/CsvWriter.cs:189-228 | The queue always holds the total row count modulo 100, and the file got every full batch. |
| CsvWriter.RecordSession | Assets/RealtimeNetworking/Common/CsvWriter.cs:130-228 | A whole session from idle leaves the file as the header followed by every row in arrival order. |
| CsvWriter.TwoHundredFiftyRows | Assets/RealtimeNetworking/Common/CsvWriter.cs:189-228 | After 250 rows from a fresh start, two automatic flushes have happened and 50 rows are pending. After stop, the file holds the header and all 250 rows. |
| Experiments.RoundsError | Assets/Scripts/ExperimentLoader.cs:35-40 | No error iff every round's scene and task index is in range. |
| Experiments.RoundsErrorIsFirstFailure | Assets/Scripts/ExperimentLoader.cs:35-40 | The message names the first failing round, and the scene check comes before the task check. |
| Experiments.IsValid | Assets/Scripts/ExperimentLoader.cs:29-42 | No error iff the experiment is well formed. Otherwise the message is that of the first failing check: name, scenes, tasks, then rounds. |
| Experiments.RoundToString | Assets/Scripts/ExperimentLoader.cs:44-48 | The label is the task's name, " dans ", then the scene's name. |
| Experiments.KeepAlnum | Assets/Scripts/ExperimentLoader.cs:64 | The ASCII alphanumerics of a text, in order. |
| Experiments.ToPascalCase | Assets/Scripts/ExperimentLoader.cs:52-69 | The empty text is kept. Any other result holds only ASCII alphanumerics. |
| Experiments.PascalWordsIsReference | Assets/Scripts/ExperimentLoader.cs:52-69 | Splitting at spaces, capitalizing each word and concatenating equals upper-casing every word-initial character and keeping the alphanumerics. |
| Experiments.ToPascalCaseIsReference | Assets/Scripts/ExperimentLoader.cs:52-69 | ToPascalCase equals the character-level reference on every input. |
| Experiments.ToPascalCaseOfWord | Assets/Scripts/ExperimentLoader.cs:52-69 | A single alphanumeric word only gets its first letter upper-cased. |
| Experiments.RoundNumberReadsBack | Assets/Scripts/ExperimentLoader.cs:72-74 | The round number has exactly as many digits as the round count and reads back as i + 1. |
| Experiments.FileNameCharacters | Assets/Scripts/ExperimentLoader.cs:50-75 | A file name holds only ASCII alphanumerics, '_' and '.', and ends in ".csv". |
| Experiments.FileNameInjective | Assets/Scripts/ExperimentLoader.cs:50-75 | Different rounds of one experiment never share a file name. |
| ExperimentLoader.NewLoader | Assets/Scripts/ExperimentLoader.cs:105-113 | After Start, no experiment is loaded, both indices are -1, both buttons are disabled and the caption says no file is selected. |
| ExperimentLoader.Notification | Assets/Scripts/ExperimentLoader.cs:198-213 | Listeners receive the index, then the round and its file name, or nulls when out of range. |
| ExperimentLoader.ChangeRound | Assets/Scripts/ExperimentLoader.cs:151-177 | The index moves by the step. The maximum never decreases and covers the index. "Previous" is on iff index ≥ 0. "Next" is off iff past the end, or at a must-record round that is the highest reached, on the first visit or on a return to it. The caption is "Début (k/n)" before the rounds, "Fin" after them, and the round's label with "(k/n)" in between. One automatic-stop subscription is added iff the round has a recording time. One notification is sent. |
| ExperimentLoader.HasRecorded | Assets/Scripts/ExperimentLoader.cs:179-182 | A finished recording re-enables "next" and changes nothing else. |
| ExperimentLoader.ChangeRoundAsWritten | Assets/Scripts/ExperimentLoader.cs:151-158 | With a script loaded, a click is exactly `ChangeRound`. With none, both buttons are turned on and the index moves by the step (the maximum following it) before the round count is read; that read throws, so the caption and the notifications are left as they were. |
| ExperimentLoader.NextWithoutScriptThrows | Assets/Scripts/ExperimentLoader.cs:145-182 | A recording finished before any script is loaded, or after a rejected one, turns "next" on, and a click on it then throws with both buttons on and the index at 0. |
| ExperimentLoader.ChangeRoundGuarded | Assets/Scripts/ExperimentLoader.cs:151-177 | The intended click: with no script it changes nothing; with one it is the as-written click, which never throws there. |
| ExperimentLoader.GuardedNextWithoutScript | Assets/Scripts/ExperimentLoader.cs:145-182 | With the guard, the same clicks leave the indices at -1, "previous" off, the "no file" caption and no notification. |
| ExperimentLoader.LoadExperiment | Assets/Scripts/ExperimentLoader.cs:128-147 | A valid script is kept at index -1, with the start caption and a null notification. An invalid one is dropped, its error shown and both buttons disabled. |
| ExperimentLoader.MustRecordHoldsNext | Assets/Scripts/ExperimentLoader.cs:155-174 | Reaching a must-record round for the first time disables "next" until HasRecorded. |
| ExperimentLoader.RevisitKeepsNext | Assets/Scripts/ExperimentLoader.cs:155-174 | Returning to a round below the highest one reached always leaves "next" on. |
| ExperimentLoader.MaxIndexMonotone | Assets/Scripts/ExperimentLoader.cs:155-156 | Over any sequence of moves, the highest index never decreases and never falls below the current one. |
| Endpoints.Match | Assets/RealtimeNetworking/RealtimeNetworkingClinician.cs:255-257 | The pattern's final `$` also accepts a single trailing newline. |
| Endpoints.MatchExactSound | Assets/RealtimeNetworking/RealtimeNetworkingClinician.cs:255-262 | Every accepted text is four 1–3-digit octets, ':' and 1–5 digits, and the groups are its two halves. |
| Endpoints.MatchExactComplete | Assets/RealtimeNetworking/RealtimeNetworkingClinician.cs:255-262 | Every such rendered address is accepted, with the expected groups. |
| Endpoints.MatchRender | Assets/RealtimeNetworking/RealtimeNetworkingClinician.cs:255-262 | A rendered address is accepted with or without one trailing newline. |
| Endpoints.MatchSound | Assets/RealtimeNetworking/RealtimeNetworkingClinician.cs:255-262 | Whatever is accepted is a rendered address, possibly followed by one newline. |
| Endpoints.PortNumber | Assets/RealtimeNetworking/RealtimeNetworkingClinician.cs:263 | The parsed port is at most 99999, so int.Parse never overflows. |
| Endpoints.RefusedPort | Assets/RealtimeNetworking/RealtimeNetworkingClinician.cs:255-261 | A port part that is not all digits is refused. |
| Endpoints.Parse | Assets/RealtimeNetworking/RealtimeNetworkingClinician.cs:255-263 | The coroutine goes on iff the text matches, with the first group as host and a port of at most 99999. |
| Endpoints.ParseRender | Assets/RealtimeNetworking/RealtimeNetworkingClinician.cs:255-263 | Any dotted address with a port up to 99999, written out, parses back to itself. |
| Endpoints.ValidateField | Assets/RealtimeNetworking/RealtimeNetworkingClient.cs:71-95 | The field is trimmed. "Connect" is enabled iff the trimmed text matches the pattern exactly. A missing field disables it. |
| Endpoints.TrimKeepsMatch | Assets/RealtimeNetworking/RealtimeNetworkingClinician.cs:312-321 | Trimming an accepted text keeps it accepted with the same groups, and removes at most a newline. |
| Text.Trim | Assets/RealtimeNetworking/RealtimeNetworkingClinician.cs:312 | A trimmed text neither starts nor ends with white space. |
| Text.TrimIsInfix | Assets/RealtimeNetworking/RealtimeNetworkingClinician.cs:312 | The trimmed text is a contiguous part of the input, and only white space is cut on each side. |
| Text.TrimEmpty | Assets/RealtimeNetworking/RealtimeNetworkingClinician.cs:312-313 | Trim gives the empty text iff the input is all white space. |
| Text.TrimIdempotent | Assets/RealtimeNetworking/RealtimeNetworkingClinician.cs:312 | Trimming twice is trimming once. |
| Text.JoinSplit | Assets/Scripts/ExperimentLoader.cs:58 | Joining the parts of a split with the same separator gives the text back. |
| Text.SplitJoin | Assets/Scripts/ExperimentLoader.cs:58 | Parts free of the separator split back out of their join. |
| Text.DecimalValueOfNatToString | Assets/Scripts/ExperimentLoader.cs:72-74 | A number's decimal text reads back as the number. |
| Text.PadLeftZeros | Assets/Scripts/ExperimentLoader.cs:72-74 | Left-padding digits with zeros keeps their value. |
| ConnectLoop.Rounds | Assets/RealtimeNetworking/RealtimeNetworkingClinician.cs:266 | The number of checks that let the loop go on before the first that ends it. |
| ConnectLoop.ClinicianRun | Assets/RealtimeNetworking/RealtimeNetworkingClinician.cs:265-279 | There is one attempt per passing check, with a five-second pause between attempts but none before the first or after the last. |
| ConnectLoop.ClientRun | Assets/RealtimeNetworking/RealtimeNetworkingClient.cs:145-154 | There is one attempt per passing check, each followed by a pause. |
| ConnectLoop.StopBoundsAttempts | Assets/RealtimeNetworking/RealtimeNetworkingClinician.cs:266 | Once a check sees the connection or the cancel request, no further attempt is made. |
| Clinician.ValidateIpAddress | Assets/RealtimeNetworking/RealtimeNetworkingClinician.cs:298-328 | While connecting, nothing but "connect" changes, and it is disabled. Otherwise the field is trimmed and "connect" is enabled iff the text matches. |
| Clinician.Start | Assets/RealtimeNetworking/RealtimeNetworkingClinician.cs:40-55 | The error is hidden, and the saved address (empty if none) is restored and validated. |
| Clinician.TryConnecting | Assets/RealtimeNetworking/RealtimeNetworkingClinician.cs:223-234 | The buttons swap, the field locks, the flags reset and one result listener is added. |
| Clinician.CancelTryConnecting | Assets/RealtimeNetworking/RealtimeNetworkingClinician.cs:236-245 | Cancel is requested, the layout is restored and the result listener is removed if present. |
| Clinician.SubscriptionBalanced | Assets/RealtimeNetworking/RealtimeNetworkingClinician.cs:223-245 | One TryConnecting followed by one or two cancellations leaves no result listener. |
| Clinician.BeginConnecting | Assets/RealtimeNetworking/RealtimeNetworkingClinician.cs:249-263 | "Connecting" is raised, "connect" is disabled, the link is disconnected once, and the target is the parse of the field. |
| Clinician.FinishConnecting | Assets/RealtimeNetworking/RealtimeNetworkingClinician.cs:281-295 | The layout resets and both flags clear. The address is saved and the control panel shown only when connected and version-validated. |
| Clinician.RunCoroutine | Assets/RealtimeNetworking/RealtimeNetworkingClinician.cs:247-296 | An unparsable address ends the coroutine right after BeginConnecting. A completed run clears both flags. |
| Clinician.NoAttemptOnBadAddress | Assets/RealtimeNetworking/RealtimeNetworkingClinician.cs:258-261 | A refused address makes no attempt and leaves "connecting" raised. |
| Clinician.RunAttempts | Assets/RealtimeNetworking/RealtimeNetworkingClinician.cs:265-295 | A run makes exactly one connection call per passing check, each to the parsed address. The address is saved and the control panel shown exactly when the check that ends the loop sees the connection made and the protocol version validated. |
| Clinician.FirstConnectionSucceeds | Assets/RealtimeNetworking/RealtimeNetworkingClinician.cs:265-291 | A run started before any Version packet, whose connection and version arrive during the first pause, ends with one attempt, the address saved and the control panel shown. |
| Clinician.ConnectedAddressOfferedAgain | Assets/RealtimeNetworking/RealtimeNetworkingClinician.cs:284-287 | An address saved by a successful run is restored and accepted at the next Start. |
| Clinician.TrimmedAddressParses | Assets/RealtimeNetworking/RealtimeNetworkingClinician.cs:312-321 | An address the coroutine accepts still matches after the trim of validation, with the same host and port. |
| Clinician.OnConnectionResult | Assets/RealtimeNetworking/RealtimeNetworkingClinician.cs:200-203 | Only the connected flag changes, to the result. |
| Clinician.OnConnexionLost | Assets/RealtimeNetworking/RealtimeNetworkingClinician.cs:205-211 | Disconnected, with the lost flag raised for the next frame. |
| Clinician.Update | Assets/RealtimeNetworking/RealtimeNetworkingClinician.cs:62-70 | After a loss, the connection panel is shown and the control panel hidden, once. Otherwise nothing changes. |
| Clinician.LostThenUpdate | Assets/RealtimeNetworking/RealtimeNetworkingClinician.cs:62-70 | A lost connection shows the connection panel on the next frame, and a second frame changes nothing more. |
| Clinician.Send | Assets/RealtimeNetworking/RealtimeNetworkingClinician.cs:77-137 | While disconnected nothing changes. A successful send appends the packet. A failed send counts as a lost connection. |
| Clinician.ChangeSceneRequest | Assets/RealtimeNetworking/RealtimeNetworkingClinician.cs:77-96 | When connected, the request carries the dropdown's value. Nothing outside the link changes. |
| Clinician.ToggleYFrameRequest | Assets/RealtimeNetworking/RealtimeNetworkingClinician.cs:98-117 | When connected, the request carries the toggle's state. Nothing outside the link changes. |
| Clinician.SendInt | Assets/RealtimeNetworking/RealtimeNetworkingClinician.cs:119-137 | When connected, the request carries the integer. Nothing outside the link changes. |
| Clinician.RequestsLayout | Assets/RealtimeNetworking/RealtimeNetworkingClinician.cs:77-137 | Every request is two fields, its kind then its value. None is sent while disconnected. |
| Clinician.PacketReceived | Assets/RealtimeNetworking/RealtimeNetworkingClinician.cs:139-198 | A packet without a leading integer is a read failure. Handling never sends and never changes the connected flag. |
| Clinician.VersionGate | Assets/RealtimeNetworking/RealtimeNetworkingClinician.cs:144-158 | Only the exact version validates. Any other shows "Mettre à jour le serveur" and disconnects. |
| Clinician.VersionMissing | Assets/RealtimeNetworking/RealtimeNetworkingClinician.cs:144-158 | A version field that is not a string is refused like a null version. |
| Clinician.EntryRoundTrip | Assets/RealtimeNetworking/RealtimeNetworkingClinician.cs:175-192 | A pose-stream packet with the clinician's object count moves every object to its pose and records the frame. |
| Clinician.EntryTooShort | Assets/RealtimeNetworking/RealtimeNetworkingClinician.cs:175-192 | A packet with fewer objects than the clinician moves is a read failure. |
| Clinician.EntryTooLong | Assets/RealtimeNetworking/RealtimeNetworkingClinician.cs:175-192 | Extra objects are ignored. The first ones are placed and recorded. |
| Clinician.UnhandledKinds | Assets/RealtimeNetworking/RealtimeNetworkingClinician.cs:194-196 | Unknown kinds and Int change nothing. |
| Clinician.SceneRequestRoundTrip | Assets/RealtimeNetworking/RealtimeNetworkingClinician.cs:160-165 | A received scene request sets the dropdown and shows only that scene. |
| Clinician.YFrameRequestRoundTrip | Assets/RealtimeNetworking/RealtimeNetworkingClinician.cs:168-173 | A received Y-frame request shows or hides the frame and sets the toggle to match. |
| Clinician.AsWrittenGuardIsVacuous | Assets/RealtimeNetworking/RealtimeNetworkingClinician.cs:351 | The guard as written takes the round's scene whatever its value. |
| Clinician.AsWrittenOutOfRange | Assets/RealtimeNetworking/RealtimeNetworkingClinician.cs:351 | Scene 5 with three options is passed on unchanged, where the intended guard gives scene 0. |
| Clinician.SceneFor | Assets/RealtimeNetworking/RealtimeNetworkingClinician.cs:349-358 | The corrected guard takes the round's scene when in range, and scene 0 otherwise. The result is always a valid option. |
| Clinician.GuardsAgreeOnValidRounds | Assets/RealtimeNetworking/RealtimeNetworkingClinician.cs:351 | For a valid experiment whose scenes fit the dropdown, both guards agree. |
| Clinician.OnExperimentRoundChanged | Assets/RealtimeNetworking/RealtimeNetworkingClinician.cs:349-358 | With the guard as written, any round's scene is selected, in range or not, and a null round gives scene 0. The toggle and save path follow the notification. When connected, both requests are sent. |
| Clinician.OnExperimentRoundChangedIntended | Assets/RealtimeNetworking/RealtimeNetworkingClinician.cs:350-352 | With the intended range guard, the selected and requested scene is always one the dropdown lists. |
| Clinician.HandlersAgreeInRange | Assets/RealtimeNetworking/RealtimeNetworkingClinician.cs:351 | When the round's scene is listed in the dropdown, or there is no round, both handlers give the same state. |
| Clinician.FollowsLoader | Assets/RealtimeNetworking/RealtimeNetworkingClinician.cs:349-358 | After every loader move, the clinician shows that round's scene, which the experiment lists, its Y-frame flag and its file name. When the dropdown lists every scene of the experiment, the handler as written equals the intended one. |
| Client.ValidateIpAddress | Assets/RealtimeNetworking/RealtimeNetworkingClient.cs:71-95 | The field is trimmed, and "connect" is enabled iff the text matches. There is no connecting guard. |
| Client.Start | Assets/RealtimeNetworking/RealtimeNetworkingClient.cs:25-36 | The saved address is restored and validated. |
| Client.TryConnecting | Assets/RealtimeNetworking/RealtimeNetworkingClient.cs:110-123 | "Connecting" is raised, the clock restarts, the layout locks and one listener is added. |
| Client.CancelTryConnecting | Assets/RealtimeNetworking/RealtimeNetworkingClient.cs:125-128 | Only "connecting" drops. |
| Client.BeginConnecting | Assets/RealtimeNetworking/RealtimeNetworkingClient.cs:133-143 | The link is disconnected once, and the target is the parse of the field. |
| Client.FinishConnecting | Assets/RealtimeNetworking/RealtimeNetworkingClient.cs:156-169 | The layout is restored. On success, the address is saved and the panel hidden. |
| Client.RunCoroutine | Assets/RealtimeNetworking/RealtimeNetworkingClient.cs:130-170 | An unparsable address ends the run right after BeginConnecting. A completed run clears "connecting". |
| Client.RunAttempts | Assets/RealtimeNetworking/RealtimeNetworkingClient.cs:145-169 | There is one connection call per passing check. |
| Client.NoAttemptOnBadAddress | Assets/RealtimeNetworking/RealtimeNetworkingClient.cs:137-141 | A refused address makes no attempt and leaves "connecting" raised. |
| Client.OnConnectionResult | Assets/RealtimeNetworking/RealtimeNetworkingClient.cs:97-100 | Only the connected flag changes. |
| Client.OnConnexionLost | Assets/RealtimeNetworking/RealtimeNetworkingClient.cs:102-108 | Both flags drop and the connection panel returns. Nothing else changes. |
| Client.Tick | Assets/RealtimeNetworking/RealtimeNetworkingClient.cs:44-69 | While disconnected nothing changes. Otherwise the frame is sent (a failure counts as a lost connection) and the clock advances. |
| Client.TickLayout | Assets/RealtimeNetworking/RealtimeNetworkingClient.cs:52-60 | The sent frame is the kind, the timestamp, then the objects' poses. |
| Patient.Tick | Assets/RealtimeNetworking/RealtimeNetworkingPatient.cs:39-59 | Every tick broadcasts one pose-stream frame, connected clients or not, and advances the clock. |
| Patient.TickLayout | Assets/RealtimeNetworking/RealtimeNetworkingPatient.cs:43-55 | The broadcast frame is the kind, the timestamp, then a position and a rotation per object. |
| Patient.Ticks | Assets/RealtimeNetworking/RealtimeNetworkingPatient.cs:39-59 | There is one frame per tick, and the objects are unchanged. |
| Patient.TicksStampFrames | Assets/RealtimeNetworking/RealtimeNetworkingPatient.cs:45-58 | Frame i is stamped with the start time plus the first i steps. |
| Patient.ShowIpAddress | Assets/RealtimeNetworking/RealtimeNetworkingPatient.cs:77-93 | No address gives the fixed message. One address gives `ip:port`. Several give `ip:port (+k)`. |
| Patient.ClientDisconnected | Assets/RealtimeNetworking/RealtimeNetworkingPatient.cs:66-70 | The connection panel returns and the stream is unaffected. |
| SceneManager.ActivateScene | Assets/Scripts/SceneManager.cs:24-30 | Each scene's flag is set exactly at the current index. |
| SceneManager.NewScenes | Assets/Scripts/SceneManager.cs:13-16 | After Start, scene 0 is current and the flags agree. |
| SceneManager.ChangeScene | Assets/Scripts/SceneManager.cs:18-22 | Any index is taken as given, and the flags agree with it. |
| SceneManager.ActiveIsCurrent | Assets/Scripts/SceneManager.cs:24-30 | At most one scene is shown: the current one when in range, none otherwise. |
| SceneManager.ChangeSceneLastWins | Assets/Scripts/SceneManager.cs:18-22 | Two changes amount to the last one. |
| KeyBoard.OnKeyPressed | Assets/Scripts/KeyBoard.cs:23-34 | "<" removes the last character, throwing on empty text. Any other key is appended. The key list never changes. |
| KeyBoard.KeyThenBackspace | Assets/Scripts/KeyBoard.cs:23-34 | A one-character key followed by "<" restores the text. |
| KeyBoard.TypeKeys | Assets/Scripts/KeyBoard.cs:30-33 | One-character keys append their characters to the text. |
| KeyBoard.EraseLast | Assets/Scripts/KeyBoard.cs:25-29 | n presses of "<" drop the last n characters. |
| KeyBoard.TypeThenErase | Assets/Scripts/KeyBoard.cs:23-34 | Typing any one-character keys, then as many "<", restores the text. |
| Session.ShownAddressAccepted | Assets/RealtimeNetworking/RealtimeNetworkingPatient.cs:90 | The address a single-interface patient shows is accepted by the clinician and parses back to the same host and port. |
| Session.SeveralAddressesRefused | Assets/RealtimeNetworking/RealtimeNetworkingPatient.cs:82 | The text shown for several interfaces is refused by the connect pattern as it stands. |
| Session.ReceiveEntries | Assets/RealtimeNetworking/RealtimeNetworkingClinician.cs:175-192 | Pose-stream packets with the clinician's object count are recorded as their entries, in order. |
| Session.PatientStreamRecorded | Assets/RealtimeNetworking/RealtimeNetworkingPatient.cs:39-59 | A patient's frames received during a recording end up in the CSV file as the header then one row per frame, in order. |
| Session.ClientFrameRecorded | Assets/RealtimeNetworking/RealtimeNetworkingClient.cs:52-60 | A frame the connected client sends is recorded by the clinician as that frame. |

## Left out

- ExperimentLoader.ChangeRound: requires a loaded script, though "next" can be on without one (`HasRecorded` after a recording with no script, or after a rejected one); that click throws in the source and is modelled by `ChangeRoundAsWritten` (see "## Findings").
- Number formatting: `float.ToString("F6")` is the parameter `fmt`, and
  single-precision floats are reals. Rounding is not modelled.
- 32-bit integers: scene indices, discriminants and counts are unbounded.
  No wrap-around is modelled. The port cannot overflow; `Endpoints.PortNumber`
  proves it.
- The `Packet` byte codec, `Sender`, `Threading` and the transport are not part
  of this model. A packet is a sequence of typed fields, and a read of the
  wrong kind or past the end is a failure. Outside the Version branch, the
  clinician's failed read leaves the whole state unchanged: any objects moved
  before the failure are not modelled.
- Clinician.PacketReceived: in the Version branch, a failed `ReadString` is
  taken as the `null` version that line 147 tests for. It shows the update
  message, clears the validation and disconnects, since `Packet.ReadString`
  is not part of this model.
- Coroutine timing: `WaitForSeconds` and `yield return 0` become `Wait` steps.
  The flags seen by the loop are an input sequence. The frame clock is a
  parameter. The connection result and the server's Version packet, which
  arrive while a coroutine is paused, are seen through the observed flags,
  the version flag included.
- Unity objects: the scene graph, `SetActive` on objects other than the
  modelled panels, the `Quaternion.Euler` conversion, and the `onValueChanged`
  callbacks that setting a toggle or dropdown may fire. The callbacks are
  wired in scenes, not in the code.
- `TMP_Dropdown.value` clamps out-of-range values. This is not modelled, so an
  out-of-range scene reaches the model's state as written.
- Listener registration: `ToggleAutomaticEnvironment` and the `Start`
  registrations of the loader on the writer are not modelled. Only the
  `SetupAutomaticStop` count is kept, as `autoStopListeners`.
  `AutomaticStopCoroutine` is a timer and is left out.
- `GetFileDialog`, `FileBrowser` and the JSON parse of the script: the model
  starts from a parsed `Experiment`.
- Experiments.IsValid: the list fields are modelled as optional, but the round
  list is always present. The source's `foreach` over a null round list would
  throw.
- `WriteCurrentRecordingTime` is an empty stub. The duplicate serialized
  `_objectsNames` field declaration is not modelled.
- Debug logging: the patient's and client's `OnPacketReceived`, and
  `ClientConnected`, only log.
- `OnDestroy`, `OnApplicationQuit`, the quit buttons and `Screen.sleepTimeout`
  are not modelled.
- Input fields and buttons are taken as present. The clinician and client null
  checks on the address field are kept only as `Endpoints.ValidateField`.
- `\d` and `ToUpper` are taken over ASCII. .NET's `\d` also accepts other
  Unicode decimal digits.
- `Path.Combine` follows POSIX rules: '/' separates and a leading '/' roots.
  Windows drive letters and '\\' are not modelled.
- `Tools.FindCurrentIPs` is an input list.
- Where the code and its description differ, the model follows the code:
  - `LoadExperiment` ends at round -1 (the "Début" caption) rather than round 0.
  - `StartRecording` has no guard of its own and overwrites an existing file.
    Only the start button's check protects it (`CsvWriter.EnabledStartKeepsFiles`).
  - A refused address ends the clinician's coroutine with "connecting" still
    raised.

## Findings

| source | as written | input that shows it | evidently intended | confidence | as-written member | corrected member |
|---|---|---|---|---|---|---|
| Assets/RealtimeNetworking/RealtimeNetworkingClinician.cs:351 | `round.scene >= 0 \|\| round.scene < options.Count` is true for every integer, so any scene index is passed to the dropdown's setter | a round with scene 5 and a dropdown of 3 scenes: 5 is passed to the setter, which clamps it to scene 2, where the intended guard gives scene 0 | `&&`: only an index within the dropdown's options is taken, otherwise scene 0 | not executed; low, because `IsValid` rejects such rounds when the experiment's scene list fits the dropdown (`Clinician.GuardsAgreeOnValidRounds`), and the setter's clamp only softens the effect | Clinician.AsWrittenOutOfRange | Clinician.SceneFor |
| Assets/Scripts/ExperimentLoader.cs:158 | the round count is read from the experiment with no null check, after lines 153-156 have already turned both buttons on and moved the indices; `HasRecorded` (179-182) turns "next" on whether or not a script is loaded | record once with no script loaded (or after a rejected one), then press "next": the click throws and leaves "previous" and "next" on and the index at 0 | a click with no script loaded does nothing | not executed; medium, because subject and trial are free text, so recording needs no script | ExperimentLoader.NextWithoutScriptThrows | ExperimentLoader.GuardedNextWithoutScript |

=== FILE: client.dfy ===
/**
 * The client application: it connects to the server and, while connected,
 * streams the poses of its tracked objects every physics step.
 */
module Client {
  import opened Optional
  import opened Text
  import opened Packets
  import opened Endpoints
  import ConnectLoop

  datatype Link = Link(
    isConnecting: bool,
    isConnected: bool,
    sent: seq<Packet>,                 // packets handed to the transport
    connectCalls: seq<Target>,         // connection attempts, in order
    disconnects: nat,                  // explicit disconnections
    resultListeners: nat)              // subscriptions to the connection result

  datatype Screen = Screen(
    ipText: string,
    ipInteractable: bool,
    connectVisible: bool,
    connectInteractable: bool,
    cancelVisible: bool,
    connexionPanel: bool)

  datatype Client = Client(
    objects: seq<Pose>,                // local position and Euler rotation of each object
    timestamp: real,
    savedIp: Option<string>,           // the "IpAddress" preference
    link: Link,
    ui: Screen)

  function GetString(saved: Option<string>): string
  {
    if saved.Some? then saved.value else ""
  }

  /** `ValidateIpAddress`: the same check as the clinician's, without a connecting guard. */
  function ValidateIpAddress(c: Client): (r: Client)
    ensures r.ui.ipText == Trim(c.ui.ipText)
    ensures r.ui.connectInteractable <==> MatchExact(Trim(c.ui.ipText)).Some?
    ensures r.link == c.link && r.objects == c.objects && r.timestamp == c.timestamp
  {
    var v := ValidateField(Some(c.ui.ipText));
    c.(ui := c.ui.(ipText := v.text.value, connectInteractable := v.connectEnabled))
  }

  /** `Start`: restore the saved address and validate it. */
  function Start(c: Client): (r: Client)
    ensures r.ui.ipText == Trim(GetString(c.savedIp))
    ensures r.ui.connectInteractable <==> MatchExact(Trim(GetString(c.savedIp))).Some?
  {
    ValidateIpAddress(c.(ui := c.ui.(ipText := GetString(c.savedIp))))
  }

  /** `TryConnecting`: lock the field, swap the buttons, raise "connecting", restart the clock. */
  function TryConnecting(c: Client): (r: Client)
    ensures r.link.isConnecting && !r.link.isConnected && r.timestamp == 0.0
    ensures !r.ui.ipInteractable && !r.ui.connectVisible && r.ui.cancelVisible
    ensures r.link.resultListeners == c.link.resultListeners + 1
    ensures r.ui.ipText == c.ui.ipText && r.link.sent == c.link.sent && r.objects == c.objects
  {
    c.(timestamp := 0.0,
       ui := c.ui.(ipInteractable := false, connectVisible := false, cancelVisible := true),
       link := c.link.(isConnecting := true, isConnected := false, resultListeners := c.link.resultListeners + 1))
  }

  /** `CancelTryConnecting`: only the "connecting" flag drops; the loop notices on its next check. */
  function CancelTryConnecting(c: Client): (r: Client)
    ensures !r.link.isConnecting
    ensures r == c.(link := c.link.(isConnecting := false))
  {
    c.(link := c.link.(isConnecting := false))
  }

  function Unsubscribe(n: nat): nat
  {
    if n == 0 then 0 else n - 1
  }

  /** The coroutine up to its loop: disconnect, then match and parse the address. */
  function BeginConnecting(c: Client): (r: (Client, Option<Target>))
    ensures r.1 == Parse(c.ui.ipText)
    ensures r.0 == c.(link := c.link.(disconnects := c.link.disconnects + 1))
  {
    (c.(link := c.link.(disconnects := c.link.disconnects + 1)), Parse(c.ui.ipText))
  }

  /** The coroutine after its loop: restore the layout; on success keep the address and hide the panel. */
  function FinishConnecting(c: Client): (r: Client)
    ensures !r.link.isConnecting && r.link.isConnected == c.link.isConnected
    ensures r.ui.ipInteractable && r.ui.connectVisible && !r.ui.cancelVisible
    ensures r.link.resultListeners == Unsubscribe(c.link.resultListeners)
    ensures c.link.isConnected ==> r.savedIp == Some(c.ui.ipText) && !r.ui.connexionPanel
    ensures !c.link.isConnected ==> r.savedIp == c.savedIp && r.ui.connexionPanel == c.ui.connexionPanel
    ensures r.link.connectCalls == c.link.connectCalls && r.link.sent == c.link.sent
  {
    var d := c.(link := c.link.(isConnecting := false, resultListeners := Unsubscribe(c.link.resultListeners)),
                ui := c.ui.(ipInteractable := true, connectVisible := true, cancelVisible := false));
    if d.link.isConnected then d.(savedIp := Some(d.ui.ipText), ui := d.ui.(connexionPanel := false)) else d
  }

  /**
   * A whole coroutine run; `obs` holds the flags at each loop check, with
   * `stop` meaning "connecting" was cleared. `None` while still running.
   */
  function RunCoroutine(c: Client, obs: seq<ConnectLoop.Flags>): (r: Option<Client>)
    ensures Parse(c.ui.ipText).None? ==> r == Some(BeginConnecting(c).0)
    ensures r.Some? && Parse(c.ui.ipText).Some? ==> !r.value.link.isConnecting
  {
    var (b, target) := BeginConnecting(c);
    if target.None? then Some(b)
    else
      var n := ConnectLoop.Rounds(obs);
      if n == |obs| then None
      else
        var looped := b.link.(isConnected := obs[n].connected, isConnecting := !obs[n].stop,
                              connectCalls := b.link.connectCalls + seq(n, _ => target.value));
        Some(FinishConnecting(b.(link := looped)))
  }

  /**
   * A finished run attempts the parsed address once per loop check that let
   * it go on, pausing after each; the address is kept exactly when connected.
   */
  lemma {:induction false} RunAttempts(c: Client, obs: seq<ConnectLoop.Flags>)
    requires Parse(c.ui.ipText).Some? && RunCoroutine(c, obs).Some?
    ensures var r := RunCoroutine(c, obs).value; var n := ConnectLoop.Rounds(obs); var before := c.link.connectCalls;
      && n < |obs|
      && |r.link.connectCalls| == |before| + n
      && r.link.connectCalls[..|before|] == before
      && (forall i | |before| <= i < |r.link.connectCalls| :: r.link.connectCalls[i] == Parse(c.ui.ipText).value)
      && n == ConnectLoop.Count(ConnectLoop.ClientLoop(obs), ConnectLoop.Wait)
      && (r.link.isConnected <==> obs[n].connected)
      && (obs[n].connected ==> r.savedIp == Some(c.ui.ipText) && !r.ui.connexionPanel)
      && (!obs[n].connected ==> r.savedIp == c.savedIp)
  {
    ConnectLoop.ClientRun(obs);
  }

  /** A text the pattern refuses ends the coroutine with no attempt, "connecting" still raised. */
  lemma {:induction false} NoAttemptOnBadAddress(c: Client, obs: seq<ConnectLoop.Flags>)
    requires Parse(c.ui.ipText).None?
    ensures var r := RunCoroutine(c, obs).value;
      r.link.connectCalls == c.link.connectCalls && r.link.isConnecting == c.link.isConnecting
  {
  }

  function OnConnectionResult(c: Client, success: bool): (r: Client)
    ensures r == c.(link := c.link.(isConnected := success))
  {
    c.(link := c.link.(isConnected := success))
  }

  /** `OnConnexionLost`: both flags drop and the connection panel comes back. */
  function OnConnexionLost(c: Client): (r: Client)
    ensures !r.link.isConnecting && !r.link.isConnected && r.ui.connexionPanel
    ensures r.link.sent == c.link.sent && r.timestamp == c.timestamp && r.objects == c.objects
    ensures r.link.(isConnecting := c.link.isConnecting, isConnected := c.link.isConnected) == c.link
    ensures r.ui.(connexionPanel := c.ui.connexionPanel) == c.ui
    ensures r.savedIp == c.savedIp
  {
    c.(link := c.link.(isConnecting := false, isConnected := false), ui := c.ui.(connexionPanel := true))
  }

  /** `FixedUpdate` with step `dt`: while connected, send the frame and advance the clock. */
  function Tick(c: Client, dt: real, transportOk: bool): (r: Client)
    ensures !c.link.isConnected ==> r == c
    ensures c.link.isConnected ==> r.timestamp == c.timestamp + dt
    ensures c.link.isConnected && transportOk ==>
      r.link.sent == c.link.sent + [EntryPacket(c.timestamp, c.objects)] && r.link.isConnected
    ensures c.link.isConnected && !transportOk ==>
      r.link.sent == c.link.sent && !r.link.isConnected && r.ui.connexionPanel
    ensures r.objects == c.objects
  {
    if !c.link.isConnected then c
    else
      var d := if transportOk then c.(link := c.link.(sent := c.link.sent + [EntryPacket(c.timestamp, c.objects)]))
               else OnConnexionLost(c);
      d.(timestamp := c.timestamp + dt)
  }

  /** A frame is the kind, the timestamp, then a position and a rotation per object. */
  lemma {:induction false} TickLayout(c: Client, dt: real)
    requires c.link.isConnected
    ensures var p := Tick(c, dt, true).link.sent[|c.link.sent|];
      && |p| == 2 + 2 * |c.objects|
      && p[0] == IntField(2) && p[1] == FloatField(c.timestamp)
      && (forall k | 0 <= k < |c.objects| ::
            p[2 + 2 * k] == Vec3Field(c.objects[k].position) && p[3 + 2 * k] == Vec3Field(c.objects[k].rotation))
  {
    EntryPacketLayout(c.timestamp, c.objects);
  }
}

=== FILE: clinician.dfy ===
/**
 * The clinician application: it connects to the patient's server, sends
 * scene, Y-frame and integer requests, records the pose stream it receives,
 * and follows the experiment loader when rounds change.
 */
module Clinician {
  import opened Optional
  import opened Text
  import Protocol
  import opened Packets
  import CsvWriter
  import SceneManager
  import opened Endpoints
  import ConnectLoop
  import opened Experiments
  import ExperimentLoader

  /** The connection flags and what went out on the network. */
  datatype Link = Link(
    isConnected: bool,
    isConnecting: bool,
    cancelRequested: bool,
    connexionLost: bool,
    versionValidated: bool,
    sent: seq<Packet>,                 // requests handed to the transport
    connectCalls: seq<Target>,         // connection attempts, in order
    disconnects: nat,                  // explicit disconnections
    resultListeners: nat)              // subscriptions to the connection result

  /** The connection screen and the control panel. */
  datatype Screen = Screen(
    errorShown: bool,
    errorText: string,
    ipText: string,
    ipInteractable: bool,
    connectVisible: bool,
    connectInteractable: bool,
    cancelVisible: bool,
    connexionPanel: bool,
    controlPanel: bool,
    savePathText: string)

  datatype Clinician = Clinician(
    scenes: SceneManager.Scenes,
    dropdownValue: int,                // the scene dropdown's selection
    dropdownOptions: nat,              // how many entries the dropdown lists
    yFrameToggle: bool,
    yFrameShown: bool,
    objects: seq<Pose>,                // the pose last applied to each object to move
    writer: CsvWriter.Writer,
    savedIp: Option<string>,           // the "IpAddress" preference
    link: Link,
    ui: Screen)

  predicate Valid(s: Clinician) {
    CsvWriter.Valid(s.writer)
  }

  const UpdateServerText: string := "Mettre \U{00E0} jour le serveur"

  /** `PlayerPrefs.GetString`: the empty text when nothing was saved. */
  function GetString(saved: Option<string>): string
  {
    if saved.Some? then saved.value else ""
  }

  /*** Address validation and the connecting coroutine ***/

  /** `ValidateIpAddress`: nothing can be started while a connection is being attempted. */
  function ValidateIpAddress(s: Clinician): (r: Clinician)
    ensures r.link == s.link && r.savedIp == s.savedIp && r.ui.errorShown == s.ui.errorShown
    ensures r.ui.ipText == if s.link.isConnecting then s.ui.ipText else Trim(s.ui.ipText)
    ensures r.ui.connectInteractable <==> !s.link.isConnecting && MatchExact(Trim(s.ui.ipText)).Some?
    ensures r == s.(ui := r.ui)
    ensures r.ui.(ipText := s.ui.ipText, connectInteractable := s.ui.connectInteractable) == s.ui
  {
    if s.link.isConnecting then s.(ui := s.ui.(connectInteractable := false))
    else
      var v := ValidateField(Some(s.ui.ipText));
      s.(ui := s.ui.(ipText := v.text.value, connectInteractable := v.connectEnabled))
  }

  /** `Start`: hide the error, restore the saved address, validate it. */
  function Start(s: Clinician): (r: Clinician)
    ensures !r.ui.errorShown
    ensures !s.link.isConnecting ==> r.ui.ipText == Trim(GetString(s.savedIp))
    ensures r.ui.connectInteractable <==> !s.link.isConnecting && MatchExact(Trim(GetString(s.savedIp))).Some?
    ensures r.link == s.link
  {
    ValidateIpAddress(s.(ui := s.ui.(errorShown := false, ipText := GetString(s.savedIp))))
  }

  /** `TryConnecting`: swap the connect and cancel buttons, lock the field, subscribe. */
  function TryConnecting(s: Clinician): (r: Clinician)
    ensures r.ui.cancelVisible && !r.ui.connectVisible && !r.ui.ipInteractable
    ensures !r.link.cancelRequested && !r.link.isConnected
    ensures r.link.resultListeners == s.link.resultListeners + 1
    ensures r.ui.ipText == s.ui.ipText && r.link.sent == s.link.sent && r.link.connectCalls == s.link.connectCalls
  {
    s.(ui := s.ui.(cancelVisible := true, ipInteractable := false, connectVisible := false),
       link := s.link.(cancelRequested := false, isConnected := false, resultListeners := s.link.resultListeners + 1))
  }

  /** Removing a subscription that is not there does nothing. */
  function Unsubscribe(n: nat): nat
  {
    if n == 0 then 0 else n - 1
  }

  /** `CancelTryConnecting`: request the loop to stop and restore the buttons. */
  function CancelTryConnecting(s: Clinician): (r: Clinician)
    ensures r.link.cancelRequested && r.ui.ipInteractable && r.ui.connectVisible && !r.ui.cancelVisible
    ensures r.link.resultListeners == Unsubscribe(s.link.resultListeners)
    ensures r.link.isConnecting == s.link.isConnecting && r.link.isConnected == s.link.isConnected
    ensures r.ui.ipText == s.ui.ipText
  {
    s.(ui := s.ui.(ipInteractable := true, connectVisible := true, cancelVisible := false),
       link := s.link.(cancelRequested := true, resultListeners := Unsubscribe(s.link.resultListeners)))
  }

  /** A subscription made by `TryConnecting` is gone after one or two cancellations. */
  lemma {:induction false} SubscriptionBalanced(s: Clinician)
    requires s.link.resultListeners == 0
    ensures CancelTryConnecting(TryConnecting(s)).link.resultListeners == 0
    ensures CancelTryConnecting(CancelTryConnecting(TryConnecting(s))).link.resultListeners == 0
  {
  }

  /** The coroutine up to its loop: the state, and where to connect (`None` ends it there). */
  datatype Started = Started(state: Clinician, target: Option<Target>)

  function BeginConnecting(s: Clinician): (b: Started)
    ensures b.state.link.isConnecting && !b.state.ui.connectInteractable
    ensures b.state.link.disconnects == s.link.disconnects + 1
    ensures b.target == Parse(s.ui.ipText)
    ensures b.state.ui.ipText == s.ui.ipText && b.state.savedIp == s.savedIp
    ensures b.state.link.connectCalls == s.link.connectCalls && b.state.link.versionValidated == s.link.versionValidated
  {
    Started(s.(ui := s.ui.(connectInteractable := false),
               link := s.link.(isConnecting := true, disconnects := s.link.disconnects + 1)),
            Parse(s.ui.ipText))
  }

  /** The coroutine after its loop: reset the layout, keep the address on success, clear the flags. */
  function FinishConnecting(s: Clinician): (r: Clinician)
    ensures !r.link.isConnecting && !r.link.cancelRequested && r.ui.connectInteractable
    ensures r.ui.connectVisible && !r.ui.cancelVisible && r.ui.ipInteractable
    ensures r.link.isConnected == s.link.isConnected && r.link.versionValidated == s.link.versionValidated
    ensures s.link.isConnected && s.link.versionValidated ==>
      r.savedIp == Some(s.ui.ipText) && !r.ui.connexionPanel && r.ui.controlPanel
    ensures !(s.link.isConnected && s.link.versionValidated) ==>
      r.savedIp == s.savedIp && r.ui.connexionPanel == s.ui.connexionPanel && r.ui.controlPanel == s.ui.controlPanel
    ensures r.link.resultListeners == Unsubscribe(s.link.resultListeners)
    ensures r.link.connectCalls == s.link.connectCalls && r.ui.ipText == s.ui.ipText
  {
    var c := CancelTryConnecting(s);
    var d := if c.link.isConnected && c.link.versionValidated
      then c.(savedIp := Some(c.ui.ipText), ui := c.ui.(connexionPanel := false, controlPanel := true))
      else c;
    d.(link := d.link.(isConnecting := false, cancelRequested := false), ui := d.ui.(connectInteractable := true))
  }

  /**
   * A whole coroutine run. `obs` holds the flags, as the result and cancel
   * callbacks left them, at each evaluation of the loop condition; `None`
   * when the loop is still running after them.
   */
  function RunCoroutine(s: Clinician, obs: seq<ConnectLoop.Flags>): (r: Option<Clinician>)
    ensures Parse(s.ui.ipText).None? ==> r == Some(BeginConnecting(s).state)
    ensures r.Some? && Parse(s.ui.ipText).Some? ==> !r.value.link.isConnecting && !r.value.link.cancelRequested
  {
    var b := BeginConnecting(s);
    if b.target.None? then Some(b.state)
    else
      var n := ConnectLoop.Rounds(obs);
      if n == |obs| then None
      else
        var calls := seq(n, _ => b.target.value);
        var looped := b.state.link.(isConnected := obs[n].connected, cancelRequested := obs[n].stop,
                                    versionValidated := obs[n].validated,
                                    connectCalls := b.state.link.connectCalls + calls);
        Some(FinishConnecting(b.state.(link := looped)))
  }

  /** A text the pattern refuses leaves the coroutine stuck before any attempt: "connecting" is never cleared. */
  lemma {:induction false} NoAttemptOnBadAddress(s: Clinician, obs: seq<ConnectLoop.Flags>)
    requires Parse(s.ui.ipText).None?
    ensures var r := RunCoroutine(s, obs).value;
      r.link.connectCalls == s.link.connectCalls && r.link.isConnecting && !ValidateIpAddress(r).ui.connectInteractable
  {
  }

  /**
   * A finished run attempts the parsed address once per loop check that let
   * it go on, and keeps the address exactly when it ended connected with the
   * version validated.
   */
  lemma {:induction false} RunAttempts(s: Clinician, obs: seq<ConnectLoop.Flags>)
    requires Parse(s.ui.ipText).Some? && RunCoroutine(s, obs).Some?
    ensures var r := RunCoroutine(s, obs).value; var n := ConnectLoop.Rounds(obs); var before := s.link.connectCalls;
      && n < |obs|
      && |r.link.connectCalls| == |before| + n
      && r.link.connectCalls[..|before|] == before
      && (forall i | |before| <= i < |r.link.connectCalls| :: r.link.connectCalls[i] == Parse(s.ui.ipText).value)
      && n == ConnectLoop.Count(ConnectLoop.ClinicianLoop(obs, true), ConnectLoop.Attempt)
      && (obs[n].connected && obs[n].validated ==>
            r.savedIp == Some(s.ui.ipText) && r.ui.controlPanel && !r.ui.connexionPanel)
      && (!(obs[n].connected && obs[n].validated) ==>
            r.savedIp == s.savedIp && r.ui.controlPanel == s.ui.controlPanel && r.ui.connexionPanel == s.ui.connexionPanel)
      && r.link.isConnected == obs[n].connected && r.link.versionValidated == obs[n].validated
  {
    ConnectLoop.ClinicianRun(obs);
  }

  /**
   * A first connection: one failed check, then the connection result and the
   * server's Version packet arrive during the pause. The run ends with one
   * attempt, the address saved and the control panel shown, whatever the
   * version flag was when it started.
   */
  lemma {:induction false} FirstConnectionSucceeds(s: Clinician, obs: seq<ConnectLoop.Flags>)
    requires Parse(s.ui.ipText).Some?
    requires obs == [ConnectLoop.Flags(false, false, false), ConnectLoop.Flags(true, false, true)]
    ensures RunCoroutine(s, obs).Some?
    ensures var r := RunCoroutine(s, obs).value;
      && r.savedIp == Some(s.ui.ipText) && r.ui.controlPanel && !r.ui.connexionPanel
      && r.link.connectCalls == s.link.connectCalls + [Parse(s.ui.ipText).value]
  {
    assert ConnectLoop.Rounds(obs[1..]) == 0;
    assert ConnectLoop.Rounds(obs) == 1;
    RunAttempts(s, obs);
    var r := RunCoroutine(s, obs).value;
    assert r.link.connectCalls == s.link.connectCalls + [Parse(s.ui.ipText).value];
  }

  /** The address kept by a successful run is offered again, and accepted, at the next start. */
  lemma {:induction false} ConnectedAddressOfferedAgain(s: Clinician, obs: seq<ConnectLoop.Flags>)
    requires Parse(s.ui.ipText).Some? && RunCoroutine(s, obs).Some?
    requires RunCoroutine(s, obs).value.savedIp == Some(s.ui.ipText)
    ensures var r := Start(RunCoroutine(s, obs).value);
      r.ui.connectInteractable && Parse(r.ui.ipText) == Parse(s.ui.ipText)
  {
    var r := RunCoroutine(s, obs).value;
    assert !r.link.isConnecting;
    assert GetString(r.savedIp) == s.ui.ipText;
    TrimmedAddressParses(s.ui.ipText);
  }

  /** An address the coroutine accepts still matches, with the same target, once trimmed. */
  lemma {:induction false} TrimmedAddressParses(t: string)
    requires Parse(t).Some?
    ensures MatchExact(Trim(t)).Some? && Parse(Trim(t)) == Parse(t)
  {
    TrimKeepsMatch(t);
    var u := Trim(t);
    if u != t {
      assert u + "\n" == t;
      assert (u + "\n")[..|u|] == u;
    }
    assert Match(u) == MatchExact(u) == Match(t);
  }

  /** `OnConnectionResult`. */
  function OnConnectionResult(s: Clinician, success: bool): (r: Clinician)
    ensures r.link.isConnected == success && r == s.(link := s.link.(isConnected := success))
  {
    s.(link := s.link.(isConnected := success))
  }

  /** `OnConnexionLost`: the panels are switched back on the next frame. */
  function OnConnexionLost(s: Clinician): (r: Clinician)
    ensures !r.link.isConnected && r.link.connexionLost
    ensures r == s.(link := s.link.(isConnected := false, connexionLost := true))
  {
    s.(link := s.link.(isConnected := false, connexionLost := true))
  }

  /** `Update`: after a lost connection, show the connection panel once. */
  function Update(s: Clinician): (r: Clinician)
    ensures !r.link.connexionLost
    ensures s.link.connexionLost ==> r.ui.connexionPanel && !r.ui.controlPanel
    ensures !s.link.connexionLost ==> r == s
    ensures r.link.isConnected == s.link.isConnected && r.link.sent == s.link.sent
  {
    if s.link.connexionLost
    then s.(ui := s.ui.(connexionPanel := true, controlPanel := false), link := s.link.(connexionLost := false))
    else s
  }

  /** A lost connection shows the connection panel on the next frame, and only once. */
  lemma {:induction false} LostThenUpdate(s: Clinician)
    ensures var r := Update(OnConnexionLost(s));
      !r.link.isConnected && r.ui.connexionPanel && !r.ui.controlPanel && !r.link.connexionLost
    ensures Update(Update(OnConnexionLost(s))) == Update(OnConnexionLost(s))
  {
  }

  /*** Requests ***/

  /** Hand a request to the transport; a transport failure counts as a lost connection. */
  function Send(s: Clinician, p: Packet, transportOk: bool): (r: Clinician)
    ensures !s.link.isConnected ==> r == s
    ensures s.link.isConnected && transportOk ==> r.link.sent == s.link.sent + [p] && r.link.isConnected
    ensures s.link.isConnected && !transportOk ==> r.link.sent == s.link.sent && !r.link.isConnected && r.link.connexionLost
    ensures r.link.sent == s.link.sent || r.link.sent == s.link.sent + [p]
    ensures r.link.connectCalls == s.link.connectCalls
    ensures r.(link := s.link) == s
  {
    if !s.link.isConnected then s
    else if transportOk then s.(link := s.link.(sent := s.link.sent + [p]))
    else OnConnexionLost(s)
  }

  function ChangeSceneRequest(s: Clinician, transportOk: bool): (r: Clinician)
    ensures !s.link.isConnected ==> r == s
    ensures s.link.isConnected && transportOk ==> r.link.sent == s.link.sent + [Request(Protocol.ChangeScene, IntField(s.dropdownValue))]
    ensures r.(link := s.link) == s
  {
    Send(s, Request(Protocol.ChangeScene, IntField(s.dropdownValue)), transportOk)
  }

  function ToggleYFrameRequest(s: Clinician, transportOk: bool): (r: Clinician)
    ensures !s.link.isConnected ==> r == s
    ensures s.link.isConnected && transportOk ==> r.link.sent == s.link.sent + [Request(Protocol.ShowYFrame, BoolField(s.yFrameToggle))]
    ensures r.(link := s.link) == s
  {
    Send(s, Request(Protocol.ShowYFrame, BoolField(s.yFrameToggle)), transportOk)
  }

  function SendInt(s: Clinician, value: int, transportOk: bool): (r: Clinician)
    ensures !s.link.isConnected ==> r == s
    ensures s.link.isConnected && transportOk ==> r.link.sent == s.link.sent + [Request(Protocol.Int, IntField(value))]
    ensures r.(link := s.link) == s
  {
    Send(s, Request(Protocol.Int, IntField(value)), transportOk)
  }

  /** Every request is two fields: its kind, then its value; none is sent while disconnected. */
  lemma {:induction false} RequestsLayout(s: Clinician, value: int, ok: bool)
    ensures forall p | p in ChangeSceneRequest(s, ok).link.sent[|s.link.sent|..] ::
      p == [IntField(4), IntField(s.dropdownValue)]
    ensures forall p | p in ToggleYFrameRequest(s, ok).link.sent[|s.link.sent|..] ::
      p == [IntField(5), BoolField(s.yFrameToggle)]
    ensures forall p | p in SendInt(s, value, ok).link.sent[|s.link.sent|..] ::
      p == [IntField(3), IntField(value)]
    ensures !s.link.isConnected ==>
      ChangeSceneRequest(s, ok).link.sent == ToggleYFrameRequest(s, ok).link.sent == SendInt(s, value, ok).link.sent == s.link.sent
  {
  }

  /*** Received packets ***/

  /** The state after a packet of a kind whose payload could be read. */
  function ApplyVersion(s: Clinician, version: Option<string>): (r: Clinician)
    ensures r.link.versionValidated <==> version == Some(Protocol.ProtocolVersion)
  {
    if version.None? || version.value != Protocol.ProtocolVersion then
      s.(ui := s.ui.(errorShown := true, errorText := UpdateServerText),
         link := s.link.(versionValidated := false, disconnects := s.link.disconnects + 1))
    else s.(link := s.link.(versionValidated := true))
  }

  /**
   * `PacketReceived`: dispatch on the packet kind. `None` is a packet whose
   * fields do not have the kinds the branch reads.
   */
  function PacketReceived(s: Clinician, p: Packet, fmt: real -> string): (r: Option<Clinician>)
    requires Valid(s)
    ensures r.Some? ==> Valid(r.value)
    ensures r.Some? ==> r.value.link.sent == s.link.sent && r.value.link.isConnected == s.link.isConnected
    ensures ReadInt(p).None? ==> r.None?
  {
    match ReadInt(p)
    case None => None
    case Some(k) =>
      match Protocol.FromInt(k.value)
      case None => Some(s)
      case Some(kind) =>
        match kind
        case Version =>
          var v := ReadString(k.rest);
          Some(ApplyVersion(s, if v.None? then None else Some(v.value.value)))
        case ChangeScene =>
          (match ReadInt(k.rest)
           case None => None
           case Some(n) => Some(s.(dropdownValue := n.value, scenes := SceneManager.ChangeScene(s.scenes, n.value))))
        case ShowYFrame =>
          (match ReadBool(k.rest)
           case None => None
           case Some(b) => Some(s.(yFrameShown := b.value, yFrameToggle := b.value)))
        case CsvWriterDataEntry =>
          (match ReadFloat(k.rest)
           case None => None
           case Some(ts) =>
             match ReadPoses(ts.rest, |s.objects|)
             case None => None
             case Some(poses) =>
               Some(s.(objects := poses.value,
                       writer := CsvWriter.AddData(s.writer, CsvWriter.DataEntry(ts.value, poses.value), fmt))))
        case Int => Some(s)
  }

  /** The server's first packet: its protocol version. */
  function VersionPacket(version: string): Packet
  {
    [IntField(Protocol.ToInt(Protocol.Version)), StrField(version)]
  }

  /** Only the exact version string validates; any other shows the update message and disconnects. */
  lemma {:induction false} VersionGate(s: Clinician, version: string, fmt: real -> string)
    requires Valid(s)
    ensures var r := PacketReceived(s, VersionPacket(version), fmt);
      && r.Some?
      && (r.value.link.versionValidated <==> version == "1.0.0")
      && (version != "1.0.0" ==>
            r.value.ui.errorShown && r.value.ui.errorText == UpdateServerText
            && r.value.link.disconnects == s.link.disconnects + 1)
      && (version == "1.0.0" ==> r.value == s.(link := s.link.(versionValidated := true)))
  {
    var p := VersionPacket(version);
    assert ReadInt(p) == Some(Read(0, [StrField(version)]));
    assert ReadString([StrField(version)]) == Some(Read(version, []));
  }

  /** A version field of another kind counts as a missing version: refused. */
  lemma {:induction false} VersionMissing(s: Clinician, f: Field, fmt: real -> string)
    requires Valid(s) && !f.StrField?
    ensures var r := PacketReceived(s, [IntField(0), f], fmt);
      r.Some? && !r.value.link.versionValidated && r.value.ui.errorShown
  {
    assert ReadInt([IntField(0), f]) == Some(Read(0, [f]));
  }

  /** The fields after the kind of a pose-stream packet. */
  lemma {:induction false} EntryPacketFront(timestamp: real, poses: seq<Pose>)
    ensures ReadInt(EntryPacket(timestamp, poses)) == Some(Read(2, [FloatField(timestamp)] + PoseFields(poses)))
    ensures ReadFloat([FloatField(timestamp)] + PoseFields(poses)) == Some(Read(timestamp, PoseFields(poses)))
  {
    var body := PoseFields(poses);
    var p := EntryPacket(timestamp, poses);
    assert p[1..] == [FloatField(timestamp)] + body;
    assert ([FloatField(timestamp)] + body)[1..] == body;
  }

  /**
   * A pose-stream packet written for as many objects as the clinician moves
   * places every object and records exactly that frame.
   */
  lemma {:induction false} EntryRoundTrip(s: Clinician, timestamp: real, poses: seq<Pose>, fmt: real -> string)
    requires Valid(s) && |poses| == |s.objects|
    ensures PacketReceived(s, EntryPacket(timestamp, poses), fmt)
      == Some(s.(objects := poses,
                 writer := CsvWriter.AddData(s.writer, CsvWriter.DataEntry(timestamp, poses), fmt)))
  {
    EntryPacketFront(timestamp, poses);
    assert PoseFields(poses) + [] == PoseFields(poses);
    ReadPosesOfPoseFields(poses, []);
  }

  /** A packet carrying fewer objects than the clinician moves is a decoding failure. */
  lemma {:induction false} EntryTooShort(s: Clinician, timestamp: real, poses: seq<Pose>, fmt: real -> string)
    requires Valid(s) && |poses| < |s.objects|
    ensures PacketReceived(s, EntryPacket(timestamp, poses), fmt).None?
  {
    EntryPacketFront(timestamp, poses);
    ReadPosesTooMany(poses, |s.objects|);
  }

  /** Extra objects in a packet are ignored: the first ones are placed and recorded. */
  lemma {:induction false} EntryTooLong(s: Clinician, timestamp: real, poses: seq<Pose>, fmt: real -> string)
    requires Valid(s) && |poses| > |s.objects|
    ensures var front := poses[..|s.objects|];
      PacketReceived(s, EntryPacket(timestamp, poses), fmt)
        == Some(s.(objects := front,
                   writer := CsvWriter.AddData(s.writer, CsvWriter.DataEntry(timestamp, front), fmt)))
  {
    EntryPacketFront(timestamp, poses);
    ReadPosesTooFew(poses, |s.objects|);
  }

  /** Kinds without a case of their own, `Int` included, change nothing. */
  lemma {:induction false} UnhandledKinds(s: Clinician, k: int, rest: Packet, fmt: real -> string)
    requires Valid(s)
    requires Protocol.FromInt(k).None? || k == Protocol.ToInt(Protocol.Int)
    ensures PacketReceived(s, [IntField(k)] + rest, fmt) == Some(s)
  {
    assert ReadInt([IntField(k)] + rest) == Some(Read(k, rest));
  }

  /** A scene request, received back, selects the scene that was requested and shows only it. */
  lemma {:induction false} SceneRequestRoundTrip(s: Clinician, n: int, fmt: real -> string)
    requires Valid(s)
    ensures var r := PacketReceived(s, Request(Protocol.ChangeScene, IntField(n)), fmt);
      && r.Some? && r.value.dropdownValue == n && r.value.scenes.current == n
      && SceneManager.Consistent(r.value.scenes)
      && r.value.scenes.names == s.scenes.names
      && r.value.writer == s.writer
  {
    assert ReadInt(Request(Protocol.ChangeScene, IntField(n))) == Some(Read(4, [IntField(n)]));
    assert ReadInt([IntField(n)]) == Some(Read(n, []));
  }

  /** A Y-frame request, received back, shows or hides the frame and sets the toggle to match. */
  lemma {:induction false} YFrameRequestRoundTrip(s: Clinician, show: bool, fmt: real -> string)
    requires Valid(s)
    ensures PacketReceived(s, Request(Protocol.ShowYFrame, BoolField(show)), fmt)
      == Some(s.(yFrameShown := show, yFrameToggle := show))
  {
    assert ReadInt(Request(Protocol.ShowYFrame, BoolField(show))) == Some(Read(5, [BoolField(show)]));
    assert ReadBool([BoolField(show)]) == Some(Read(show, []));
  }

  /*** Following the experiment ***/

  /** The scene chosen for a round exactly as the guard is written: the `||` makes it always true. */
  function SceneForAsWritten(round: Option<Round>, optionCount: nat): int
  {
    if round.Some? && (round.value.scene >= 0 || round.value.scene < optionCount) then round.value.scene else 0
  }

  /** Whatever the round asks for is taken, however far out of range. */
  lemma {:induction false} AsWrittenGuardIsVacuous(round: Round, optionCount: nat)
    ensures SceneForAsWritten(Some(round), optionCount) == round.scene
  {
  }

  /**
   * A round naming scene 5 passes 5 to the setter of a dropdown of three
   * scenes, where the intended guard would fall back to scene 0.
   */
  lemma {:induction false} AsWrittenOutOfRange()
    ensures var round := Some(Round(5, 0, false, false, 0.0));
      var chosen := SceneForAsWritten(round, 3);
      chosen == 5 && !(0 <= chosen < 3) && SceneFor(round, 3) == 0
  {
  }

  /** The scene chosen for a round with the range guard intended: the round's scene when listed, the waiting room otherwise. */
  function SceneFor(round: Option<Round>, optionCount: nat): (v: int)
    ensures round.Some? && 0 <= round.value.scene < optionCount ==> v == round.value.scene
    ensures !(round.Some? && 0 <= round.value.scene < optionCount) ==> v == 0
    ensures 0 <= v && (optionCount > 0 ==> v < optionCount)
  {
    if round.Some? && round.value.scene >= 0 && round.value.scene < optionCount then round.value.scene else 0
  }

  /** For the rounds of a valid experiment whose scenes all fit the dropdown, both guards agree. */
  lemma {:induction false} GuardsAgreeOnValidRounds(e: Experiment, i: int, optionCount: nat)
    requires WellFormed(e) && 0 <= i < |e.rounds| && |e.sceneNames.value| <= optionCount
    ensures SceneFor(Some(e.rounds[i]), optionCount) == SceneForAsWritten(Some(e.rounds[i]), optionCount)
  {
    assert RoundOk(e.rounds[i], |e.sceneNames.value|, |e.taskNames.value|);
  }

  /** The handler's steps once the scene is chosen: request it, set and request the Y-frame, show the file name. */
  function FollowRound(s: Clinician, scene: int, n: ExperimentLoader.RoundChanged, sceneOk: bool, frameOk: bool): (r: Clinician)
    ensures r.dropdownValue == scene
    ensures r.yFrameToggle <==> n.round.Some? && n.round.value.showYFrame
    ensures r.ui.savePathText == (if n.filename.None? then "" else n.filename.value)
    ensures s.link.isConnected && sceneOk && frameOk ==>
      r.link.sent == s.link.sent + [Request(Protocol.ChangeScene, IntField(scene)),
                                    Request(Protocol.ShowYFrame, BoolField(r.yFrameToggle))]
    ensures !s.link.isConnected ==> r.link == s.link
    ensures r.scenes == s.scenes && r.writer == s.writer && r.objects == s.objects
  {
    var a := ChangeSceneRequest(s.(dropdownValue := scene), sceneOk);
    var b := ToggleYFrameRequest(a.(yFrameToggle := n.round.Some? && n.round.value.showYFrame), frameOk);
    b.(ui := b.ui.(savePathText := if n.filename.None? then "" else n.filename.value))
  }

  /**
   * `OnExperimentRoundChanged` as written: the `||` guard passes any round's
   * scene on, in range or not; only a null round falls back to scene 0.
   */
  function OnExperimentRoundChanged(s: Clinician, n: ExperimentLoader.RoundChanged, sceneOk: bool, frameOk: bool): (r: Clinician)
    ensures r.dropdownValue == (if n.round.Some? then n.round.value.scene else 0)
    ensures r.yFrameToggle <==> n.round.Some? && n.round.value.showYFrame
    ensures r.ui.savePathText == (if n.filename.None? then "" else n.filename.value)
    ensures s.link.isConnected && sceneOk && frameOk ==>
      r.link.sent == s.link.sent + [Request(Protocol.ChangeScene, IntField(r.dropdownValue)),
                                    Request(Protocol.ShowYFrame, BoolField(r.yFrameToggle))]
    ensures !s.link.isConnected ==> r.link == s.link
    ensures r.scenes == s.scenes && r.writer == s.writer
  {
    FollowRound(s, SceneForAsWritten(n.round, s.dropdownOptions), n, sceneOk, frameOk)
  }

  /** The handler with the intended range guard: the scene it selects and requests is always one the dropdown lists. */
  function OnExperimentRoundChangedIntended(s: Clinician, n: ExperimentLoader.RoundChanged, sceneOk: bool, frameOk: bool): (r: Clinician)
    ensures r.dropdownValue == SceneFor(n.round, s.dropdownOptions)
    ensures s.dropdownOptions > 0 ==> 0 <= r.dropdownValue < s.dropdownOptions
    ensures r.yFrameToggle <==> n.round.Some? && n.round.value.showYFrame
    ensures s.link.isConnected && sceneOk && frameOk ==>
      r.link.sent == s.link.sent + [Request(Protocol.ChangeScene, IntField(r.dropdownValue)),
                                    Request(Protocol.ShowYFrame, BoolField(r.yFrameToggle))]
  {
    FollowRound(s, SceneFor(n.round, s.dropdownOptions), n, sceneOk, frameOk)
  }

  /** Both handlers do the same whenever the round's scene is one the dropdown lists, or there is no round. */
  lemma {:induction false} HandlersAgreeInRange(s: Clinician, n: ExperimentLoader.RoundChanged, sceneOk: bool, frameOk: bool)
    requires n.round.Some? ==> 0 <= n.round.value.scene < s.dropdownOptions
    ensures OnExperimentRoundChanged(s, n, sceneOk, frameOk) == OnExperimentRoundChangedIntended(s, n, sceneOk, frameOk)
  {
    assert SceneForAsWritten(n.round, s.dropdownOptions) == SceneFor(n.round, s.dropdownOptions);
  }

  /**
   * Following a valid experiment: each round the loader announces selects
   * that round's scene, which the experiment's scene list holds (the waiting
   * room outside the rounds), and offers the round's file name as the save
   * path. When the dropdown lists every scene of the experiment, the handler
   * as written does exactly what the intended one does.
   */
  lemma {:induction false} FollowsLoader(s: Clinician, l: ExperimentLoader.Loader, step: int, sceneOk: bool, frameOk: bool)
    requires ExperimentLoader.Valid(l) && l.experiment.Some?
    ensures var m := ExperimentLoader.ChangeRound(l, step);
      var n := m.notified[|m.notified| - 1];
      var e := l.experiment.value;
      var r := OnExperimentRoundChanged(s, n, sceneOk, frameOk);
      && (0 <= m.current < |e.rounds| ==>
            && r.dropdownValue == e.rounds[m.current].scene && 0 <= r.dropdownValue < |e.sceneNames.value|
            && r.ui.savePathText == FileName(e, m.current))
      && (!(0 <= m.current < |e.rounds|) ==> r.dropdownValue == 0 && r.ui.savePathText == "")
      && (|e.sceneNames.value| <= s.dropdownOptions ==> r == OnExperimentRoundChangedIntended(s, n, sceneOk, frameOk))
  {
    var m := ExperimentLoader.ChangeRound(l, step);
    var n := m.notified[|m.notified| - 1];
    var e := l.experiment.value;
    if 0 <= m.current < |e.rounds| {
      assert RoundOk(e.rounds[m.current], |e.sceneNames.value|, |e.taskNames.value|);
    }
    if |e.sceneNames.value| <= s.dropdownOptions {
      HandlersAgreeInRange(s, n, sceneOk, frameOk);
    }
  }
}

=== FILE: connect_loop.dfy ===
/**
 * The retry loops of the two connecting coroutines. The connection and
 * cancellation flags change between frames, outside the coroutine; a run is
 * therefore modelled by the flag values seen at each evaluation of the loop
 * condition, and its result is the sequence of connection attempts and
 * five-second pauses it performs.
 */
module ConnectLoop {

  /**
   * The flags as seen at one check of the loop condition: `stop` is the
   * cancel request (or, for the client, `!_isConnecting`), and `validated`
   * the clinician's protocol-version flag, which the server's Version packet
   * sets while the coroutine is paused. The client has no version check and
   * ignores it.
   */
  datatype Flags = Flags(connected: bool, stop: bool, validated: bool)

  datatype Step = Attempt | Wait

  predicate Continues(f: Flags) {
    !f.connected && !f.stop
  }

  /** The number of condition checks that let the loop go on before the first that ends it. */
  function Rounds(obs: seq<Flags>): (n: nat)
    ensures n <= |obs|
    ensures forall i | 0 <= i < n :: Continues(obs[i])
    ensures n < |obs| ==> !Continues(obs[n])
    decreases |obs|
  {
    if |obs| == 0 || !Continues(obs[0]) then 0 else 1 + Rounds(obs[1..])
  }

  /** The clinician's loop: a pause before every attempt but the first. */
  function ClinicianLoop(obs: seq<Flags>, first: bool): seq<Step>
    decreases |obs|
  {
    if |obs| == 0 || !Continues(obs[0]) then []
    else (if first then [] else [Wait]) + [Attempt] + ClinicianLoop(obs[1..], false)
  }

  /** The client's loop: every attempt is followed by a pause. */
  function ClientLoop(obs: seq<Flags>): seq<Step>
    decreases |obs|
  {
    if |obs| == 0 || !Continues(obs[0]) then []
    else [Attempt, Wait] + ClientLoop(obs[1..])
  }

  /** Attempts and pauses alternating, starting with an attempt. */
  predicate Alternates(t: seq<Step>) {
    forall i | 0 <= i < |t| :: t[i] == (if i % 2 == 0 then Attempt else Wait)
  }

  function Count(t: seq<Step>, s: Step): (n: nat)
    ensures n <= |t|
  {
    if |t| == 0 then 0 else (if t[0] == s then 1 else 0) + Count(t[1..], s)
  }

  lemma {:induction false} CountAlternates(t: seq<Step>)
    requires Alternates(t)
    ensures Count(t, Attempt) == (|t| + 1) / 2 && Count(t, Wait) == |t| / 2
    decreases |t|
  {
    if |t| > 0 {
      var u := t[1..];
      assert forall i | 0 <= i < |u| :: u[i] == (if i % 2 == 0 then Wait else Attempt) by {
        forall i | 0 <= i < |u|
          ensures u[i] == (if i % 2 == 0 then Wait else Attempt)
        {
          assert u[i] == t[i + 1];
        }
      }
      if |u| > 0 {
        var v := u[1..];
        assert Alternates(v) by {
          forall i | 0 <= i < |v|
            ensures v[i] == (if i % 2 == 0 then Attempt else Wait)
          {
            assert v[i] == t[i + 2];
          }
        }
        CountAlternates(v);
        assert u[0] == Wait;
      }
    }
  }

  /** The shape of a clinician run, whether or not its first attempt is still ahead. */
  lemma {:induction false} ClinicianLoopShape(obs: seq<Flags>, first: bool)
    ensures var t := ClinicianLoop(obs, first); var n := Rounds(obs);
      && |t| == (if n == 0 then 0 else if first then 2 * n - 1 else 2 * n)
      && (first ==> Alternates(t))
      && (!first ==> forall i | 0 <= i < |t| :: t[i] == (if i % 2 == 0 then Wait else Attempt))
    decreases |obs|
  {
    if |obs| > 0 && Continues(obs[0]) {
      var rest := ClinicianLoop(obs[1..], false);
      ClinicianLoopShape(obs[1..], false);
      var t := ClinicianLoop(obs, first);
      if first {
        assert t == [Attempt] + rest;
        forall i | 0 <= i < |t|
          ensures t[i] == (if i % 2 == 0 then Attempt else Wait)
        {
          if i > 0 {
            assert t[i] == rest[i - 1];
          }
        }
      } else {
        assert t == [Wait, Attempt] + rest;
        forall i | 0 <= i < |t|
          ensures t[i] == (if i % 2 == 0 then Wait else Attempt)
        {
          if i > 1 {
            assert t[i] == rest[i - 2];
          }
        }
      }
    }
  }

  /**
   * The clinician attempts once per check that lets the loop go on, pausing
   * between attempts but never before the first or after the last.
   */
  lemma {:induction false} ClinicianRun(obs: seq<Flags>)
    ensures var t := ClinicianLoop(obs, true);
      && Alternates(t)
      && Count(t, Attempt) == Rounds(obs)
      && Count(t, Wait) == (if Rounds(obs) == 0 then 0 else Rounds(obs) - 1)
      && (|t| > 0 ==> t[|t| - 1] == Attempt)
  {
    ClinicianLoopShape(obs, true);
    CountAlternates(ClinicianLoop(obs, true));
  }

  lemma {:induction false} ClientLoopShape(obs: seq<Flags>)
    ensures var t := ClientLoop(obs);
      |t| == 2 * Rounds(obs) && Alternates(t)
    decreases |obs|
  {
    if |obs| > 0 && Continues(obs[0]) {
      var rest := ClientLoop(obs[1..]);
      ClientLoopShape(obs[1..]);
      var t := ClientLoop(obs);
      forall i | 0 <= i < |t|
        ensures t[i] == (if i % 2 == 0 then Attempt else Wait)
      {
        if i > 1 {
          assert t[i] == rest[i - 2];
        }
      }
    }
  }

  /** The client attempts once per check that lets the loop go on, pausing after each attempt. */
  lemma {:induction false} ClientRun(obs: seq<Flags>)
    ensures var t := ClientLoop(obs);
      && Alternates(t)
      && Count(t, Attempt) == Rounds(obs)
      && Count(t, Wait) == Rounds(obs)
  {
    ClientLoopShape(obs);
    CountAlternates(ClientLoop(obs));
  }

  /** Once a check sees the connection made or the cancel request, no further attempt is made. */
  lemma {:induction false} StopBoundsAttempts(obs: seq<Flags>, j: nat)
    requires j < |obs| && !Continues(obs[j])
    ensures Count(ClinicianLoop(obs, true), Attempt) <= j
    ensures Count(ClientLoop(obs), Attempt) <= j
  {
    ClinicianRun(obs);
    ClientRun(obs);
  }
}

=== FILE: csv_writer.dfy ===
/**
 * The batched telemetry writer: the CSV header and row layout, the
 * start-button check, and the Idle/Recording lifecycle whose pending rows
 * reach the file every `FramesPerFlush` rows and when recording stops.
 *
 * The file system is a map from path to the lines written there. A number's
 * text (the source's `F6` format) is the parameter `fmt`.
 */
module CsvWriter {
  import opened Optional
  import opened Text
  import opened Packets

  /** One telemetry sample: a timestamp and one pose per tracked object. */
  datatype DataEntry = DataEntry(timestamp: real, poses: seq<Pose>)

  const FramesPerFlush: nat := 100

  const AxisSuffixes: seq<string> := ["_Pos.X", "_Pos.Y", "_Pos.Z", "_Rot.X", "_Rot.Y", "_Rot.Z"]

  const MismatchMessage: string := "Number of objects to save does not match the provided data."

  /*** Line layout ***/

  /** The six header cells of one object. */
  function ObjectColumns(name: string): seq<string>
  {
    [name + "_Pos.X", name + "_Pos.Y", name + "_Pos.Z", name + "_Rot.X", name + "_Rot.Y", name + "_Rot.Z"]
  }

  /** The `j`-th number of a pose in row order: position X, Y, Z then rotation X, Y, Z. */
  function Component(p: Pose, j: nat): real
    requires j < 6
  {
    if j == 0 then p.position.x else if j == 1 then p.position.y else if j == 2 then p.position.z
    else if j == 3 then p.rotation.x else if j == 4 then p.rotation.y else p.rotation.z
  }

  /** The six row cells of one pose. */
  function PoseCells(p: Pose, fmt: real -> string): seq<string>
  {
    [fmt(p.position.x), fmt(p.position.y), fmt(p.position.z),
     fmt(p.rotation.x), fmt(p.rotation.y), fmt(p.rotation.z)]
  }

  /** Each item's cells, items in list order. */
  function Columns<T>(items: seq<T>, cellsOf: T -> seq<string>): seq<string>
  {
    if |items| == 0 then [] else Columns(items[..|items| - 1], cellsOf) + cellsOf(items[|items| - 1])
  }

  /** A line built as the source builds it: the first cell, then `","` and the item's cells per item. */
  function LineText<T>(first: string, items: seq<T>, cellsOf: T -> seq<string>): string
  {
    if |items| == 0 then first
    else LineText(first, items[..|items| - 1], cellsOf) + "," + Join(cellsOf(items[|items| - 1]), ',')
  }

  /** `DataEntry.Header(objectsNames)`. */
  function Header(names: seq<string>): string
  {
    LineText("Frame", names, ObjectColumns)
  }

  /** The header's cells. */
  function HeaderCells(names: seq<string>): seq<string>
  {
    ["Frame"] + Columns(names, ObjectColumns)
  }

  /** `DataEntry.ToString()`. */
  function RowText(e: DataEntry, fmt: real -> string): string
  {
    LineText(fmt(e.timestamp), e.poses, p => PoseCells(p, fmt))
  }

  /** The row's cells. */
  function RowCells(e: DataEntry, fmt: real -> string): seq<string>
  {
    [fmt(e.timestamp)] + Columns(e.poses, p => PoseCells(p, fmt))
  }

  predicate NoComma(cells: seq<string>) {
    forall i | 0 <= i < |cells| :: ',' !in cells[i]
  }

  /** The accumulated text is the comma-join of the cells. */
  lemma {:induction false} LineTextIsJoin<T>(first: string, items: seq<T>, cellsOf: T -> seq<string>)
    requires forall x :: |cellsOf(x)| >= 1
    ensures LineText(first, items, cellsOf) == Join([first] + Columns(items, cellsOf), ',')
    decreases |items|
  {
    if |items| > 0 {
      var init, last := items[..|items| - 1], items[|items| - 1];
      LineTextIsJoin(first, init, cellsOf);
      JoinConcat([first] + Columns(init, cellsOf), cellsOf(last), ',');
      assert [first] + Columns(items, cellsOf) == ([first] + Columns(init, cellsOf)) + cellsOf(last);
    } else {
      assert [first] + Columns(items, cellsOf) == [first];
    }
  }

  lemma {:induction false} ColumnsLength<T>(items: seq<T>, cellsOf: T -> seq<string>)
    requires forall x :: |cellsOf(x)| == 6
    ensures |Columns(items, cellsOf)| == 6 * |items|
    decreases |items|
  {
    if |items| > 0 {
      ColumnsLength(items[..|items| - 1], cellsOf);
    }
  }

  /** Cell `6k + j` of the columns is cell `j` of item `k`. */
  lemma {:induction false} ColumnsAt<T>(items: seq<T>, cellsOf: T -> seq<string>, k: int, j: int)
    requires forall x :: |cellsOf(x)| == 6
    requires 0 <= k < |items| && 0 <= j < 6
    ensures |Columns(items, cellsOf)| == 6 * |items|
    ensures Columns(items, cellsOf)[6 * k + j] == cellsOf(items[k])[j]
    decreases |items|
  {
    ColumnsLength(items, cellsOf);
    var init := items[..|items| - 1];
    ColumnsLength(init, cellsOf);
    if k < |items| - 1 {
      ColumnsAt(init, cellsOf, k, j);
    }
  }

  lemma {:induction false} ColumnsNoComma<T>(items: seq<T>, cellsOf: T -> seq<string>)
    requires forall k | 0 <= k < |items| :: NoComma(cellsOf(items[k]))
    ensures NoComma(Columns(items, cellsOf))
    decreases |items|
  {
    if |items| > 0 {
      ColumnsNoComma(items[..|items| - 1], cellsOf);
    }
  }

  /** The header is "Frame" and then six columns per object: `name_Pos.X` ... `name_Rot.Z`. */
  lemma {:induction false} HeaderShape(names: seq<string>, k: int, j: int)
    requires 0 <= k < |names| && 0 <= j < 6
    ensures |HeaderCells(names)| == 1 + 6 * |names|
    ensures HeaderCells(names)[0] == "Frame"
    ensures HeaderCells(names)[1 + 6 * k + j] == names[k] + AxisSuffixes[j]
  {
    ColumnsAt(names, ObjectColumns, k, j);
  }

  /** With comma-free object names the header line splits back into exactly its 1 + 6n cells. */
  lemma {:induction false} HeaderFields(names: seq<string>)
    requires forall k | 0 <= k < |names| :: ',' !in names[k]
    ensures Header(names) == Join(HeaderCells(names), ',')
    ensures Split(Header(names), ',') == HeaderCells(names)
    ensures |Split(Header(names), ',')| == 1 + 6 * |names|
  {
    LineTextIsJoin("Frame", names, ObjectColumns);
    ColumnsLength(names, ObjectColumns);
    forall k | 0 <= k < |names|
      ensures NoComma(ObjectColumns(names[k]))
    {
      var cols := ObjectColumns(names[k]);
      forall i | 0 <= i < 6
        ensures ',' !in cols[i]
      {
        assert cols[i] == names[k] + AxisSuffixes[i];
      }
    }
    ColumnsNoComma(names, ObjectColumns);
    SplitJoin(HeaderCells(names), ',');
  }

  /** A row is the timestamp and then, pose by pose, three position and three rotation numbers. */
  lemma {:induction false} RowShape(e: DataEntry, fmt: real -> string, k: int, j: int)
    requires 0 <= k < |e.poses| && 0 <= j < 6
    ensures |RowCells(e, fmt)| == 1 + 6 * |e.poses|
    ensures RowCells(e, fmt)[0] == fmt(e.timestamp)
    ensures RowCells(e, fmt)[1 + 6 * k + j] == fmt(Component(e.poses[k], j))
  {
    ColumnsAt(e.poses, p => PoseCells(p, fmt), k, j);
  }

  /** When no number's text holds a comma, a row splits back into exactly its 1 + 6|poses| cells. */
  lemma {:induction false} RowFields(e: DataEntry, fmt: real -> string)
    requires forall x: real :: ',' !in fmt(x)
    ensures RowText(e, fmt) == Join(RowCells(e, fmt), ',')
    ensures Split(RowText(e, fmt), ',') == RowCells(e, fmt)
    ensures |Split(RowText(e, fmt), ',')| == 1 + 6 * |e.poses|
  {
    var cellsOf := p => PoseCells(p, fmt);
    LineTextIsJoin(fmt(e.timestamp), e.poses, cellsOf);
    ColumnsLength(e.poses, cellsOf);
    ColumnsNoComma(e.poses, cellsOf);
    SplitJoin(RowCells(e, fmt), ',');
  }

  /*** Recording lifecycle ***/

  datatype Buttons = Buttons(
    startInteractable: bool,
    startVisible: bool,
    startLabel: string,
    stopInteractable: bool,
    stopVisible: bool)

  /** What the start and stop listeners are told, in order. */
  datatype WriterEvent = RecordingStarted(path: string) | RecordingStopped

  datatype Writer = Writer(
    dataDir: string,                   // Application.persistentDataPath
    subject: string,                   // subject input text
    trial: string,                     // trial input text
    objectNames: seq<string>,
    files: map<string, seq<string>>,   // the lines of every existing file
    openPath: Option<string>,          // the open StreamWriter's file, if any
    isRecording: bool,
    queue: seq<string>,                // rows not yet written
    frameCount: int,
    buttons: Buttons,
    events: seq<WriterEvent>,
    log: seq<string>)

  /** The state every operation keeps. */
  predicate Valid(w: Writer) {
    && (w.isRecording ==> w.openPath.Some?)
    && (w.openPath.Some? ==> w.openPath.value in w.files)
    && (w.openPath.None? ==> w.queue == [])
    && w.frameCount == |w.queue| < FramesPerFlush
  }

  /** The open file's lines. */
  function FileLines(w: Writer): seq<string>
    requires w.openPath.Some? && w.openPath.value in w.files
  {
    w.files[w.openPath.value]
  }

  /** What the file will hold once everything pending is flushed. */
  function Content(w: Writer): seq<string>
    requires w.openPath.Some? && w.openPath.value in w.files
  {
    FileLines(w) + w.queue
  }

  /** The writer after `Start()`: nothing open, both buttons disabled, stop hidden. */
  function NewWriter(dataDir: string, names: seq<string>, files: map<string, seq<string>>, startLabel: string): (w: Writer)
    ensures Valid(w) && !w.isRecording && w.openPath.None?
    ensures !w.buttons.startInteractable && !w.buttons.stopInteractable && !w.buttons.stopVisible
  {
    Writer(dataDir, "", "", names, files, None, false, [], 0,
           Buttons(false, true, startLabel, false, false), [], [])
  }

  /** `Path.Combine` of two parts with '/' as separator: a rooted second part wins. */
  function Combine(a: string, b: string): string
  {
    if |b| == 0 then a
    else if |a| == 0 || b[0] == '/' then b
    else if a[|a| - 1] == '/' then a + b
    else a + "/" + b
  }

  /** `_filePath`: data directory, subject, then `trial.csv`. */
  function FilePath(w: Writer): string
  {
    Combine(Combine(w.dataDir, w.subject), w.trial + ".csv")
  }

  /** For ordinary names the path is `dataDir/subject/trial.csv`. */
  lemma {:induction false} FilePathPlain(w: Writer)
    requires |w.dataDir| > 0 && w.dataDir[|w.dataDir| - 1] != '/'
    requires |w.subject| > 0 && w.subject[0] != '/' && w.subject[|w.subject| - 1] != '/'
    requires |w.trial| == 0 || w.trial[0] != '/'
    ensures FilePath(w) == w.dataDir + "/" + w.subject + "/" + w.trial + ".csv"
  {
    var ds := w.dataDir + "/" + w.subject;
    assert ds[|ds| - 1] == w.subject[|w.subject| - 1];
    assert (w.trial + ".csv")[0] != '/';
  }

  datatype PathCheck = PathCheck(canRecord: bool, caption: string)

  /** The start button's state, checks in priority order: subject, trial, existing file. */
  function CheckDataPath(w: Writer): (c: PathCheck)
    ensures c.canRecord <==> w.subject != "" && w.trial != "" && FilePath(w) !in w.files
    ensures c.canRecord ==> c.caption == "Enregistrer"
    ensures w.subject == "" ==> c.caption == "Entrer sujet"
    ensures w.subject != "" && w.trial == "" ==> c.caption == "Entrer essai"
    ensures w.subject != "" && w.trial != "" && FilePath(w) in w.files ==> c.caption == "Fichier existant"
  {
    if w.subject == "" then PathCheck(false, "Entrer sujet")
    else if w.trial == "" then PathCheck(false, "Entrer essai")
    else if FilePath(w) in w.files then PathCheck(false, "Fichier existant")
    else PathCheck(true, "Enregistrer")
  }

  /** `ValidateDataPath`: only the start button changes. */
  function ValidateDataPath(w: Writer): (r: Writer)
    ensures r.buttons.startInteractable == CheckDataPath(w).canRecord
    ensures r.buttons.startLabel == CheckDataPath(w).caption
    ensures r == w.(buttons := r.buttons)
    ensures r.buttons.(startInteractable := w.buttons.startInteractable, startLabel := w.buttons.startLabel) == w.buttons
  {
    var c := CheckDataPath(w);
    w.(buttons := w.buttons.(startInteractable := c.canRecord, startLabel := c.caption))
  }

  /** `StartRecording`: (re)creates the file with its header line and tells the start listeners. */
  function StartRecording(w: Writer): (r: Writer)
    ensures Valid(w) ==> Valid(r)
    ensures r.isRecording && r.openPath == Some(FilePath(w)) && FilePath(w) in r.files
    ensures Content(r) == [Header(w.objectNames)] + w.queue
    ensures forall p | p in w.files && p != FilePath(w) :: p in r.files && r.files[p] == w.files[p]
    ensures r.files.Keys == w.files.Keys + {FilePath(w)}
    ensures r.events == w.events + [RecordingStarted(FilePath(w))]
    ensures r.queue == w.queue
    ensures !r.buttons.startVisible && r.buttons.stopInteractable && r.buttons.stopVisible
    ensures r.buttons.startLabel == w.buttons.startLabel
    ensures r.dataDir == w.dataDir && r.subject == w.subject && r.trial == w.trial
    ensures r.objectNames == w.objectNames && r.log == w.log
  {
    var path := FilePath(w);
    w.(files := w.files[path := [Header(w.objectNames)]],
       openPath := Some(path),
       buttons := w.buttons.(startInteractable := false, startVisible := false,
                             stopInteractable := true, stopVisible := true),
       isRecording := true,
       events := w.events + [RecordingStarted(path)])
  }

  /** When the check enabled the start button, starting never touches an existing file. */
  lemma {:induction false} EnabledStartKeepsFiles(w: Writer)
    requires CheckDataPath(w).canRecord
    ensures FilePath(w) !in w.files
    ensures forall p | p in w.files :: p in StartRecording(w).files && StartRecording(w).files[p] == w.files[p]
  {
  }

  /** `PreventManualStopping`: disables stop while recording. */
  function PreventManualStopping(w: Writer): (r: Writer)
    ensures !w.isRecording ==> r == w
    ensures w.isRecording ==> !r.buttons.stopInteractable && r == w.(buttons := r.buttons)
    ensures r.buttons.(stopInteractable := w.buttons.stopInteractable) == w.buttons
  {
    if !w.isRecording then w else w.(buttons := w.buttons.(stopInteractable := false))
  }

  /** `FlushDataToFile`: the pending rows go to the end of the file, in order. */
  function FlushDataToFile(w: Writer): (r: Writer)
    requires Valid(w) && w.openPath.Some?
    ensures Valid(r) && r.openPath == w.openPath && r.isRecording == w.isRecording
    ensures r.queue == [] && r.frameCount == 0
    ensures FileLines(r) == FileLines(w) + w.queue
    ensures Content(r) == Content(w)
    ensures r.files.Keys == w.files.Keys
    ensures forall p | p in w.files && p != w.openPath.value :: r.files[p] == w.files[p]
  {
    var p := w.openPath.value;
    w.(files := w.files[p := w.files[p] + w.queue], queue := [], frameCount := 0)
  }

  /** `AddData`: while recording the row is queued, and every 100th queued row flushes. */
  function AddData(w: Writer, e: DataEntry, fmt: real -> string): (r: Writer)
    requires Valid(w)
    ensures Valid(r)
    ensures !w.isRecording ==> r == w
    ensures w.isRecording ==> r.isRecording && r.openPath == w.openPath
    ensures w.isRecording ==> Content(r) == Content(w) + [RowText(e, fmt)]
    ensures w.isRecording && |w.queue| + 1 < FramesPerFlush ==> r.queue == w.queue + [RowText(e, fmt)] && FileLines(r) == FileLines(w)
    ensures w.isRecording && |w.queue| + 1 == FramesPerFlush ==>
      r.queue == [] && FileLines(r) == FileLines(w) + w.queue + [RowText(e, fmt)]
    ensures w.isRecording ==> r.log == w.log + (if |e.poses| != |w.objectNames| then [MismatchMessage] else [])
    ensures r.files.Keys == w.files.Keys
    ensures forall q | q in w.files && (w.openPath.None? || q != w.openPath.value) :: r.files[q] == w.files[q]
    ensures r.events == w.events && r.buttons == w.buttons && r.objectNames == w.objectNames
    ensures r.dataDir == w.dataDir && r.subject == w.subject && r.trial == w.trial
  {
    if !w.isRecording then w
    else
      var logged := if |e.poses| != |w.objectNames| then w.log + [MismatchMessage] else w.log;
      var queued := w.(log := logged, queue := w.queue + [RowText(e, fmt)], frameCount := w.frameCount + 1);
      if queued.frameCount >= FramesPerFlush then
        var p := w.openPath.value;
        queued.(files := queued.files[p := queued.files[p] + queued.queue], queue := [], frameCount := 0)
      else queued
  }

  /** `StopRecording`: flushes and closes the open file (if any), then tells the stop listeners. */
  function StopRecording(w: Writer): (r: Writer)
    requires Valid(w)
    ensures Valid(r) && !r.isRecording && r.openPath.None? && r.queue == []
    ensures w.openPath.Some? ==> r.files == w.files[w.openPath.value := Content(w)]
    ensures w.openPath.None? ==> r.files == w.files
    ensures r.events == w.events + [RecordingStopped]
    ensures r.buttons.startVisible && !r.buttons.stopInteractable && !r.buttons.stopVisible
    ensures r.buttons.startInteractable == CheckDataPath(w).canRecord
    ensures r.buttons.startLabel == CheckDataPath(w).caption
    ensures r.dataDir == w.dataDir && r.subject == w.subject && r.trial == w.trial
    ensures r.objectNames == w.objectNames && r.log == w.log
  {
    var closed := if w.openPath.Some? then FlushDataToFile(w).(openPath := None) else w;
    var shown := closed.(buttons := closed.buttons.(startInteractable := true, startVisible := true,
                                                    stopInteractable := false, stopVisible := false));
    var checked := ValidateDataPath(shown);
    checked.(isRecording := false, events := checked.events + [RecordingStopped])
  }

  /** Stopping the recording of the current path leaves the start button on "Fichier existant". */
  lemma {:induction false} StopShowsExistingFile(w: Writer)
    requires Valid(w) && w.openPath == Some(FilePath(w))
    requires w.subject != "" && w.trial != ""
    ensures !StopRecording(w).buttons.startInteractable
    ensures StopRecording(w).buttons.startLabel == "Fichier existant"
  {
  }

  /*** Sessions ***/

  /** `AddData` of every entry, in order. */
  function AddAll(w: Writer, entries: seq<DataEntry>, fmt: real -> string): (r: Writer)
    requires Valid(w)
    ensures Valid(r)
    decreases |entries|
  {
    if |entries| == 0 then w else AddAll(AddData(w, entries[0], fmt), entries[1..], fmt)
  }

  function RowTexts(entries: seq<DataEntry>, fmt: real -> string): (rows: seq<string>)
    ensures |rows| == |entries|
  {
    if |entries| == 0 then [] else [RowText(entries[0], fmt)] + RowTexts(entries[1..], fmt)
  }

  /** Nothing is lost or reordered: file plus queue grows by exactly the added rows. */
  lemma {:induction false} AddAllAppends(w: Writer, entries: seq<DataEntry>, fmt: real -> string)
    requires Valid(w) && w.isRecording
    ensures AddAll(w, entries, fmt).isRecording && AddAll(w, entries, fmt).openPath == w.openPath
    ensures Content(AddAll(w, entries, fmt)) == Content(w) + RowTexts(entries, fmt)
    decreases |entries|
  {
    if |entries| > 0 {
      var w1 := AddData(w, entries[0], fmt);
      var row := RowText(entries[0], fmt);
      assert w1.isRecording && Content(w1) == Content(w) + [row];
      AddAllAppends(w1, entries[1..], fmt);
      assert AddAll(w, entries, fmt) == AddAll(w1, entries[1..], fmt);
      assert RowTexts(entries, fmt) == [row] + RowTexts(entries[1..], fmt);
      assert Content(w) + ([row] + RowTexts(entries[1..], fmt)) == (Content(w) + [row]) + RowTexts(entries[1..], fmt);
    }
  }

  /** One row either joins the queue or completes a batch that moves to the file. */
  lemma {:induction false} AddDataCounts(w: Writer, e: DataEntry, fmt: real -> string)
    requires Valid(w) && w.isRecording
    ensures var r := AddData(w, e, fmt);
      && Valid(r) && r.isRecording && r.openPath == w.openPath
      && (|w.queue| + 1 == FramesPerFlush ==> |r.queue| == 0 && |FileLines(r)| == |FileLines(w)| + FramesPerFlush)
      && (|w.queue| + 1 != FramesPerFlush ==> |r.queue| == |w.queue| + 1 && |FileLines(r)| == |FileLines(w)|)
  {
  }

  lemma {:induction false} FullBatchMod(m: nat)
    ensures (FramesPerFlush + m) % FramesPerFlush == m % FramesPerFlush
  {
  }

  /** Batching: the queue holds the total modulo 100 and the file got every full batch. */
  lemma {:induction false} AddAllBatches(w: Writer, entries: seq<DataEntry>, fmt: real -> string)
    requires Valid(w) && w.isRecording
    ensures var r := AddAll(w, entries, fmt); var total := |w.queue| + |entries|;
      && r.openPath == w.openPath
      && |r.queue| == total % FramesPerFlush
      && |FileLines(r)| == |FileLines(w)| + total - total % FramesPerFlush
    decreases |entries|
  {
    if |entries| > 0 {
      var w1 := AddData(w, entries[0], fmt);
      AddDataCounts(w, entries[0], fmt);
      AddAllBatches(w1, entries[1..], fmt);
      assert AddAll(w, entries, fmt) == AddAll(w1, entries[1..], fmt);
      if |w.queue| + 1 == FramesPerFlush {
        FullBatchMod(|entries| - 1);
      }
    }
  }

  /** A whole session from Idle: the file ends as the header then every row, in arrival order. */
  lemma {:induction false} RecordSession(w: Writer, entries: seq<DataEntry>, fmt: real -> string)
    requires Valid(w) && w.openPath.None?
    ensures var r := StopRecording(AddAll(StartRecording(w), entries, fmt));
      && FilePath(w) in r.files
      && r.files[FilePath(w)] == [Header(w.objectNames)] + RowTexts(entries, fmt)
  {
    var s := StartRecording(w);
    assert w.queue == [];
    assert Content(s) == [Header(w.objectNames)];
    AddAllAppends(s, entries, fmt);
    var a := AddAll(s, entries, fmt);
    assert a.openPath == Some(FilePath(w));
    assert Content(a) == [Header(w.objectNames)] + RowTexts(entries, fmt);
    var r := StopRecording(a);
    assert r.files == a.files[FilePath(w) := Content(a)];
  }

  /** 250 rows from a fresh start: two automatic flushes, 50 rows pending, all 250 on disk after stop. */
  lemma {:induction false} TwoHundredFiftyRows(w: Writer, entries: seq<DataEntry>, fmt: real -> string)
    requires Valid(w) && w.openPath.None? && |entries| == 250
    ensures var a := AddAll(StartRecording(w), entries, fmt);
      && |a.queue| == 50 && |FileLines(a)| == 1 + 200
      && FilePath(w) in StopRecording(a).files
      && |StopRecording(a).files[FilePath(w)]| == 1 + 250
  {
    var s := StartRecording(w);
    AddAllBatches(s, entries, fmt);
    RecordSession(w, entries, fmt);
  }
}

=== FILE: endpoints.dfy ===
/**
 * The server-address text both connecting applications accept, through
 * the pattern `^(\d{1,3}\.\d{1,3}\.\d{1,3}\.\d{1,3}):(\d{1,5})$`.
 * `\d` is taken as the ASCII digits; `$` also matches just before a final
 * newline, as it does in .NET without the multiline option.
 */
module Endpoints {
  import opened Optional
  import opened Text

  /** The two capture groups: the dotted host text and the port digits. */
  datatype Endpoint = Endpoint(host: string, portText: string)

  predicate DigitsBetween(s: string, lo: nat, hi: nat) {
    lo <= |s| <= hi && AllDigits(s)
  }

  /** Four dot-separated runs of one to three digits. */
  predicate OctetsOk(octets: seq<string>) {
    |octets| == 4 && forall k | 0 <= k < 4 :: DigitsBetween(octets[k], 1, 3)
  }

  /** The text an address is written as: `a.b.c.d:port`. */
  function Render(octets: seq<string>, portText: string): string
  {
    Join(octets, '.') + ":" + portText
  }

  /** The whole pattern matched against exactly `s`. */
  function MatchExact(s: string): Option<Endpoint>
  {
    var parts := Split(s, ':');
    if |parts| == 2 && OctetsOk(Split(parts[0], '.')) && DigitsBetween(parts[1], 1, 5)
    then Some(Endpoint(parts[0], parts[1]))
    else None
  }

  /** `Regex.Match`: the final `$` also accepts one trailing newline. */
  function Match(s: string): (r: Option<Endpoint>)
    ensures |s| > 0 && s[|s| - 1] == '\n' ==> r == MatchExact(s[..|s| - 1])
    ensures !(|s| > 0 && s[|s| - 1] == '\n') ==> r == MatchExact(s)
  {
    if |s| > 0 && s[|s| - 1] == '\n' then MatchExact(s[..|s| - 1]) else MatchExact(s)
  }

  /** `Regex.IsMatch` with the same pattern without groups. */
  predicate IsMatch(s: string) {
    Match(s).Some?
  }

  /** Every accepted text is a rendered address, the groups being its two halves. */
  lemma {:induction false} MatchExactSound(s: string)
    requires MatchExact(s).Some?
    ensures var e := MatchExact(s).value;
      && OctetsOk(Split(e.host, '.')) && DigitsBetween(e.portText, 1, 5)
      && Join(Split(e.host, '.'), '.') == e.host
      && s == Render(Split(e.host, '.'), e.portText)
  {
    var parts := Split(s, ':');
    JoinSplit(s, ':');
    JoinSplit(parts[0], '.');
    assert parts[1..] == [parts[1]];
  }

  /** A run of digits holds no other character. */
  lemma {:induction false} DigitsExclude(s: string, c: char)
    requires AllDigits(s) && !IsDigit(c)
    ensures c !in s
  {
    forall k | 0 <= k < |s|
      ensures s[k] != c
    {
      assert IsDigit(s[k]);
    }
  }

  /** A rendered address splits back into its host and port, and its host into the octets. */
  lemma {:induction false} RenderSplits(octets: seq<string>, portText: string)
    requires OctetsOk(octets) && DigitsBetween(portText, 1, 5)
    ensures Split(Join(octets, '.'), '.') == octets
    ensures Split(Render(octets, portText), ':') == [Join(octets, '.'), portText]
  {
    var host := Join(octets, '.');
    forall k | 0 <= k < |octets|
      ensures '.' !in octets[k] && ':' !in octets[k]
    {
      assert DigitsBetween(octets[k], 1, 3);
      DigitsExclude(octets[k], '.');
      DigitsExclude(octets[k], ':');
    }
    SplitJoin(octets, '.');
    JoinNoChar(octets, '.', ':');
    DigitsExclude(portText, ':');
    assert Render(octets, portText) == Join([host, portText], ':');
    SplitJoin([host, portText], ':');
  }

  /** Every rendered address is accepted, with the expected groups. */
  lemma {:induction false} MatchExactComplete(octets: seq<string>, portText: string)
    requires OctetsOk(octets) && DigitsBetween(portText, 1, 5)
    ensures MatchExact(Render(octets, portText)) == Some(Endpoint(Join(octets, '.'), portText))
  {
    RenderSplits(octets, portText);
  }

  /** A joined text holds no character absent from its parts and different from the separator. */
  lemma {:induction false} JoinNoChar(parts: seq<string>, sep: char, c: char)
    requires c != sep
    requires forall k | 0 <= k < |parts| :: c !in parts[k]
    ensures c !in Join(parts, sep)
    decreases |parts|
  {
    if |parts| > 1 {
      JoinNoChar(parts[1..], sep, c);
    }
  }

  /** With or without one trailing newline, a rendered address gives the same groups. */
  lemma {:induction false} MatchRender(octets: seq<string>, portText: string)
    requires OctetsOk(octets) && DigitsBetween(portText, 1, 5)
    ensures Match(Render(octets, portText)) == Some(Endpoint(Join(octets, '.'), portText))
    ensures Match(Render(octets, portText) + "\n") == Some(Endpoint(Join(octets, '.'), portText))
  {
    var s := Render(octets, portText);
    assert s[|s| - 1] == portText[|portText| - 1];
    assert (s + "\n")[..|s|] == s;
    MatchExactComplete(octets, portText);
  }

  /** Whatever `Match` accepts is a rendered address, possibly followed by one newline. */
  lemma {:induction false} MatchSound(s: string)
    requires Match(s).Some?
    ensures var e := Match(s).value;
      && OctetsOk(Split(e.host, '.')) && DigitsBetween(e.portText, 1, 5)
      && (s == Render(Split(e.host, '.'), e.portText) || s == Render(Split(e.host, '.'), e.portText) + "\n")
  {
    if |s| > 0 && s[|s| - 1] == '\n' {
      MatchExactSound(s[..|s| - 1]);
      assert s == s[..|s| - 1] + "\n";
    } else {
      MatchExactSound(s);
    }
  }

  function Pow10(k: nat): (p: nat)
    ensures p >= 1
  {
    if k == 0 then 1 else 10 * Pow10(k - 1)
  }

  lemma {:induction false} Pow10Monotone(a: nat, b: nat)
    requires a <= b
    ensures Pow10(a) <= Pow10(b)
    decreases b
  {
    if a < b {
      Pow10Monotone(a, b - 1);
    }
  }

  /** `k` digits never spell a value of `10^k` or more. */
  lemma {:induction false} DecimalValueBound(s: string)
    requires AllDigits(s)
    ensures DecimalValue(s) < Pow10(|s|)
    decreases |s|
  {
    if |s| > 0 {
      DecimalValueBound(s[..|s| - 1]);
    }
  }

  /** `int.Parse` of the port group: always within 0..99999, so it never overflows. */
  function PortNumber(e: Endpoint): (n: nat)
    requires DigitsBetween(e.portText, 1, 5)
    ensures n <= 99999
  {
    DecimalValueBound(e.portText);
    Pow10Monotone(|e.portText|, 5);
    assert Pow10(5) == 100000;
    DecimalValue(e.portText)
  }

  /** A number below `10^k` is written with at most `k` digits. */
  lemma {:induction false} NatToStringDigits(n: nat, k: nat)
    requires k >= 1 && n < Pow10(k)
    ensures |NatToString(n)| <= k
    decreases n
  {
    if n >= 10 {
      assert k >= 2;
      assert n / 10 < Pow10(k - 1);
      NatToStringDigits(n / 10, k - 1);
    }
  }

  /** A port part that is not all digits is refused, whatever precedes the colon. */
  lemma {:induction false} RefusedPort(host: string, tail: string)
    requires ':' !in host && ':' !in tail && !AllDigits(tail)
    requires |tail| > 0 && tail[|tail| - 1] != '\n'
    ensures Match(host + ":" + tail).None?
  {
    var s := host + ":" + tail;
    assert s[|s| - 1] == tail[|tail| - 1];
    assert s == Join([host, tail], ':');
    SplitJoin([host, tail], ':');
  }

  /** Where the coroutine connects: the first group, and `int.Parse` of the second. */
  datatype Target = Target(host: string, port: nat)

  /** The coroutine's match and parse of the address text; `None` ends the coroutine. */
  function Parse(s: string): (t: Option<Target>)
    ensures t.Some? <==> Match(s).Some?
    ensures t.Some? ==> t.value.host == Match(s).value.host && t.value.port <= 99999
  {
    match Match(s)
    case None => None
    case Some(e) =>
      MatchSound(s);
      Some(Target(e.host, PortNumber(e)))
  }

  /** Any address with a port up to 99999, written out, is parsed back into itself. */
  lemma {:induction false} ParseRender(octets: seq<string>, port: nat)
    requires OctetsOk(octets) && port <= 99999
    ensures Parse(Render(octets, NatToString(port))) == Some(Target(Join(octets, '.'), port))
  {
    NatToStringDigits(port, 5);
    MatchRender(octets, NatToString(port));
    DecimalValueOfNatToString(port);
  }

  /** The text field after `ValidateIpAddress`, and whether "connect" is enabled. */
  datatype Validation = Validation(text: Option<string>, connectEnabled: bool)

  /** Both applications' `ValidateIpAddress` once past any connecting guard: trim, then require the pattern. */
  function ValidateField(field: Option<string>): (v: Validation)
    ensures field.None? ==> v == Validation(None, false)
    ensures field.Some? ==> v.text == Some(Trim(field.value))
    ensures v.connectEnabled <==> field.Some? && MatchExact(Trim(field.value)).Some?
  {
    if field.None? then Validation(None, false)
    else
      var t := Trim(field.value);
      assert |t| > 0 ==> !IsWhiteSpace(t[|t| - 1]);
      assert Match(t) == MatchExact(t);
      if t == "" then Validation(Some(t), false)
      else Validation(Some(t), IsMatch(t))
  }

  /** A rendered address starts and ends with a digit. */
  lemma {:induction false} RenderEnds(octets: seq<string>, portText: string)
    requires OctetsOk(octets) && DigitsBetween(portText, 1, 5)
    ensures var r := Render(octets, portText);
      |r| > 0 && IsDigit(r[0]) && IsDigit(r[|r| - 1])
  {
    var host := Join(octets, '.');
    assert DigitsBetween(octets[0], 1, 3);
    assert host == octets[0] + ['.'] + Join(octets[1..], '.');
    assert host[0] == octets[0][0];
    var r := Render(octets, portText);
    assert r == host + ":" + portText;
    assert r[0] == host[0];
    assert r[|r| - 1] == portText[|portText| - 1];
  }

  /** Trimming an accepted text leaves exactly the rendered address. */
  lemma {:induction false} TrimOfMatch(s: string)
    requires Match(s).Some?
    ensures var e := Match(s).value;
      && OctetsOk(Split(e.host, '.')) && DigitsBetween(e.portText, 1, 5)
      && Trim(s) == Render(Split(e.host, '.'), e.portText)
      && (s == Trim(s) || s == Trim(s) + "\n")
  {
    var e := Match(s).value;
    MatchSound(s);
    var octets := Split(e.host, '.');
    var r := Render(octets, e.portText);
    RenderEnds(octets, e.portText);
    TrimDigitEnds(r);
  }

  lemma {:induction false} TrimDigitEnds(r: string)
    requires |r| > 0 && IsDigit(r[0]) && IsDigit(r[|r| - 1])
    ensures Trim(r) == r && Trim(r + "\n") == r
  {
    TrimUntouched(r);
    TrimDropsNewline(r);
  }

  /** Trimming an accepted text keeps it accepted, with the same groups. */
  lemma {:induction false} TrimKeepsMatch(s: string)
    requires Match(s).Some?
    ensures MatchExact(Trim(s)) == Match(s)
    ensures Trim(s) == s || Trim(s) + "\n" == s
  {
    var e := Match(s).value;
    TrimOfMatch(s);
    var octets := Split(e.host, '.');
    JoinSplit(e.host, '.');
    MatchExactComplete(octets, e.portText);
  }
}

=== FILE: experiment.dfy ===
/**
 * An experiment script: named scenes and tasks, and the rounds that pick
 * one of each. Validation reports the first problem found; every round
 * has a display label and a CSV file name.
 */
module Experiments {
  import opened Optional
  import opened Text

  datatype Round = Round(scene: int, task: int, showYFrame: bool, mustRecord: bool, recordingTime: real)

  /** `None` stands for a field the script left `null`. */
  datatype Experiment = Experiment(
    name: Option<string>,
    sceneNames: Option<seq<string>>,
    taskNames: Option<seq<string>>,
    rounds: seq<Round>)

  const MissingName: string := "Nom de l'exp\U{00E9}rience manquant"
  const MissingScenes: string := "Noms des sc\U{00E8}nes manquants"
  const MissingTasks: string := "Noms des t\U{00E2}ches manquants"
  const BadScene: string := "Index d'une sc\U{00E8}ne invalide"
  const BadTask: string := "Index d'une t\U{00E2}che invalide"

  /*** Validation ***/

  predicate SceneOk(r: Round, sceneCount: nat) {
    0 <= r.scene < sceneCount
  }

  predicate TaskOk(r: Round, taskCount: nat) {
    0 <= r.task < taskCount
  }

  predicate RoundOk(r: Round, sceneCount: nat, taskCount: nat) {
    SceneOk(r, sceneCount) && TaskOk(r, taskCount)
  }

  predicate AllRoundsOk(rounds: seq<Round>, sceneCount: nat, taskCount: nat) {
    forall k | 0 <= k < |rounds| :: RoundOk(rounds[k], sceneCount, taskCount)
  }

  predicate NameOk(e: Experiment) {
    e.name.Some? && |e.name.value| > 0
  }

  /** Everything the rest of the program relies on: a name, both name lists, indices in range. */
  predicate WellFormed(e: Experiment) {
    && NameOk(e)
    && e.sceneNames.Some? && e.taskNames.Some?
    && AllRoundsOk(e.rounds, |e.sceneNames.value|, |e.taskNames.value|)
  }

  /** The per-round checks, round by round, scene before task. */
  function RoundsError(rounds: seq<Round>, sceneCount: nat, taskCount: nat): (err: Option<string>)
    ensures err.None? <==> AllRoundsOk(rounds, sceneCount, taskCount)
    ensures err.None? || err == Some(BadScene) || err == Some(BadTask)
    decreases |rounds|
  {
    if |rounds| == 0 then None
    else if !SceneOk(rounds[0], sceneCount) then Some(BadScene)
    else if !TaskOk(rounds[0], taskCount) then Some(BadTask)
    else
      var rest := RoundsError(rounds[1..], sceneCount, taskCount);
      assert AllRoundsOk(rounds, sceneCount, taskCount) <==> AllRoundsOk(rounds[1..], sceneCount, taskCount) by {
        if AllRoundsOk(rounds[1..], sceneCount, taskCount) {
          forall k | 0 <= k < |rounds|
            ensures RoundOk(rounds[k], sceneCount, taskCount)
          {
            if k > 0 {
              assert rounds[k] == rounds[1..][k - 1];
            }
          }
        }
      }
      rest
  }

  /** The message names the first round that fails, and within it the scene check comes first. */
  lemma {:induction false} RoundsErrorIsFirstFailure(rounds: seq<Round>, sceneCount: nat, taskCount: nat, k: int)
    requires 0 <= k < |rounds| && !RoundOk(rounds[k], sceneCount, taskCount)
    requires AllRoundsOk(rounds[..k], sceneCount, taskCount)
    ensures RoundsError(rounds, sceneCount, taskCount)
            == if SceneOk(rounds[k], sceneCount) then Some(BadTask) else Some(BadScene)
    decreases k
  {
    if k > 0 {
      assert rounds[..k][0] == rounds[0];
      assert rounds[1..][..k - 1] == rounds[1..k];
      forall m | 0 <= m < k - 1
        ensures RoundOk(rounds[1..][m], sceneCount, taskCount)
      {
        assert rounds[1..][m] == rounds[..k][m + 1];
      }
      RoundsErrorIsFirstFailure(rounds[1..], sceneCount, taskCount, k - 1);
    }
  }

  /** `IsValid`: `None` (the source's `null`) when well formed, otherwise the first failing check's message. */
  function IsValid(e: Experiment): (err: Option<string>)
    ensures err.None? <==> WellFormed(e)
    ensures err == Some(MissingName) <==> !NameOk(e)
    ensures err == Some(MissingScenes) <==> NameOk(e) && e.sceneNames.None?
    ensures err == Some(MissingTasks) <==> NameOk(e) && e.sceneNames.Some? && e.taskNames.None?
    ensures NameOk(e) && e.sceneNames.Some? && e.taskNames.Some? ==>
              err == RoundsError(e.rounds, |e.sceneNames.value|, |e.taskNames.value|)
  {
    if !NameOk(e) then Some(MissingName)
    else if e.sceneNames.None? then Some(MissingScenes)
    else if e.taskNames.None? then Some(MissingTasks)
    else RoundsError(e.rounds, |e.sceneNames.value|, |e.taskNames.value|)
  }

  /*** Labels and file names ***/

  /** `RoundToString`: the task's name, " dans ", then the scene's name. */
  function RoundToString(e: Experiment, i: int): (s: string)
    requires WellFormed(e) && 0 <= i < |e.rounds|
    ensures var task := e.taskNames.value[e.rounds[i].task];
      var scene := e.sceneNames.value[e.rounds[i].scene];
      && |s| == |task| + 6 + |scene|
      && s[..|task|] == task
      && s[|task|..|task| + 6] == " dans "
      && s[|s| - |scene|..] == scene
  {
    assert RoundOk(e.rounds[i], |e.sceneNames.value|, |e.taskNames.value|);
    var r := e.rounds[i];
    e.taskNames.value[r.task] + " dans " + e.sceneNames.value[r.scene]
  }

  /** The entries of `s.Split(' ', RemoveEmptyEntries)`. */
  function Words(s: string): seq<string>
  {
    NonEmpty(Split(s, ' '))
  }

  function NonEmpty(parts: seq<string>): (r: seq<string>)
    ensures forall k | 0 <= k < |r| :: |r[k]| > 0
  {
    if |parts| == 0 then []
    else (if parts[0] == "" then [] else [parts[0]]) + NonEmpty(parts[1..])
  }

  /** The characters of `s` matching `[a-zA-Z0-9]`, in order. */
  function KeepAlnum(s: string): (r: string)
    ensures |r| <= |s|
    ensures forall k | 0 <= k < |r| :: IsAsciiAlnum(r[k])
  {
    if |s| == 0 then ""
    else (if IsAsciiAlnum(s[0]) then [s[0]] else "") + KeepAlnum(s[1..])
  }

  /** The first character upper-cased, the rest as is. */
  function Capitalize(w: string): string
    requires |w| > 0
  {
    [ToUpper(w[0])] + w[1..]
  }

  function PascalWords(words: seq<string>): (r: string)
    requires forall k | 0 <= k < |words| :: |words[k]| > 0
    ensures forall k | 0 <= k < |r| :: IsAsciiAlnum(r[k])
  {
    if |words| == 0 then "" else KeepAlnum(Capitalize(words[0])) + PascalWords(words[1..])
  }

  /** `ToPascalCase`: empty text as is, else each word capitalized and stripped to ASCII alphanumerics. */
  function ToPascalCase(s: string): (r: string)
    ensures s == "" ==> r == ""
    ensures forall k | 0 <= k < |r| :: IsAsciiAlnum(r[k])
  {
    if s == "" then s else PascalWords(Words(s))
  }

  /** The reference reading: upper-case every character that starts a word, then keep the alphanumerics. */
  function CapitalizeWordStarts(s: string): string
  {
    seq(|s|, i requires 0 <= i < |s| => if i == 0 || s[i - 1] == ' ' then ToUpper(s[i]) else s[i])
  }

  lemma {:induction false} KeepAlnumConcat(a: string, b: string)
    ensures KeepAlnum(a + b) == KeepAlnum(a) + KeepAlnum(b)
    decreases |a|
  {
    if |a| > 0 {
      assert (a + b)[1..] == a[1..] + b;
      KeepAlnumConcat(a[1..], b);
    } else {
      assert a + b == b;
    }
  }

  lemma {:induction false} CapitalizeWordStartsSplits(a: string, b: string)
    ensures CapitalizeWordStarts(a + " " + b) == CapitalizeWordStarts(a) + " " + CapitalizeWordStarts(b)
  {
  }

  lemma {:induction false} CapitalizeWordStartsOfWord(w: string)
    requires |w| > 0 && ' ' !in w
    ensures CapitalizeWordStarts(w) == Capitalize(w)
  {
  }

  /** The words of a text with a space: those before the first space, then the rest's. */
  lemma {:induction false} WordsAtSpace(s: string, i: nat)
    requires i == IndexOf(s, ' ') && i < |s|
    ensures s == s[..i] + " " + s[i + 1..]
    ensures Words(s) == (if s[..i] == "" then [] else [s[..i]]) + Words(s[i + 1..])
  {
    var a, b := s[..i], s[i + 1..];
    SplitAt(s, ' ');
    var parts := Split(s, ' ');
    assert parts[0] == a && parts[1..] == Split(b, ' ');
    assert NonEmpty(parts) == (if a == "" then [] else [a]) + NonEmpty(parts[1..]);
  }

  /** The words of a text with no space: itself, unless it is empty. */
  lemma {:induction false} PascalWordsOfWord(s: string)
    requires IndexOf(s, ' ') == |s|
    ensures PascalWords(Words(s)) == KeepAlnum(CapitalizeWordStarts(s))
  {
    assert s[..|s|] == s;
    assert Split(s, ' ') == [s];
    if s == "" {
      assert NonEmpty([s]) == [];
    } else {
      assert NonEmpty([s]) == [s];
      CapitalizeWordStartsOfWord(s);
      assert PascalWords([s]) == KeepAlnum(Capitalize(s)) + PascalWords([]);
    }
  }

  /** One more leading word adds its capitalized alphanumerics in front. */
  lemma {:induction false} PascalWordsCons(a: string, ws: seq<string>)
    requires forall k | 0 <= k < |ws| :: |ws[k]| > 0
    requires ' ' !in a
    ensures var front := if a == "" then [] else [a];
      PascalWords(front + ws) == KeepAlnum(CapitalizeWordStarts(a)) + PascalWords(ws)
  {
    if a == "" {
      assert ([] + ws) == ws;
    } else {
      CapitalizeWordStartsOfWord(a);
      assert ([a] + ws)[1..] == ws;
    }
  }

  /** The split-and-capitalize algorithm agrees with the character-level reference. */
  lemma {:induction false} PascalWordsIsReference(s: string)
    ensures PascalWords(Words(s)) == KeepAlnum(CapitalizeWordStarts(s))
    decreases |s|
  {
    var i := IndexOf(s, ' ');
    if i == |s| {
      PascalWordsOfWord(s);
    } else {
      var a, b := s[..i], s[i + 1..];
      WordsAtSpace(s, i);
      PascalWordsIsReference(b);
      assert ' ' !in a;
      PascalWordsCons(a, Words(b));
      CapitalizeWordStartsSplits(a, b);
      KeepAlnumConcat(CapitalizeWordStarts(a) + " ", CapitalizeWordStarts(b));
      KeepAlnumConcat(CapitalizeWordStarts(a), " ");
    }
  }

  /** `ToPascalCase` is the reference reading for every input. */
  lemma {:induction false} ToPascalCaseIsReference(s: string)
    ensures ToPascalCase(s) == KeepAlnum(CapitalizeWordStarts(s))
  {
    PascalWordsIsReference(s);
  }

  /** An identifier that is already one alphanumeric word only gets its first letter upper-cased. */
  lemma {:induction false} ToPascalCaseOfWord(w: string)
    requires |w| > 0 && forall k | 0 <= k < |w| :: IsAsciiAlnum(w[k])
    ensures ToPascalCase(w) == Capitalize(w)
  {
    ToPascalCaseIsReference(w);
    assert ' ' !in w by {
      forall k | 0 <= k < |w|
        ensures w[k] != ' '
      {
        assert IsAsciiAlnum(w[k]);
      }
    }
    CapitalizeWordStartsOfWord(w);
    KeepAlnumAll(Capitalize(w));
  }

  lemma {:induction false} KeepAlnumAll(s: string)
    requires forall k | 0 <= k < |s| :: IsAsciiAlnum(s[k])
    ensures KeepAlnum(s) == s
    decreases |s|
  {
    if |s| > 0 {
      KeepAlnumAll(s[1..]);
    }
  }

  /** The round number `i + 1`, zero-padded to as many digits as the round count has. */
  function RoundNumber(count: nat, i: nat): string
  {
    PadLeft(NatToString(i + 1), |NatToString(count)|, '0')
  }

  /** What follows the round number in a file name: task and scene in PascalCase, then `.csv`. */
  function FileNameTail(e: Experiment, i: int): string
    requires WellFormed(e) && 0 <= i < |e.rounds|
  {
    assert RoundOk(e.rounds[i], |e.sceneNames.value|, |e.taskNames.value|);
    var r := e.rounds[i];
    "_" + ToPascalCase(e.taskNames.value[r.task]) + "_" + ToPascalCase(e.sceneNames.value[r.scene]) + ".csv"
  }

  /** `FileName`: round number, task and scene in PascalCase, `.csv`. */
  function FileName(e: Experiment, i: int): string
    requires WellFormed(e) && 0 <= i < |e.rounds|
  {
    RoundNumber(|e.rounds|, i) + FileNameTail(e, i)
  }

  /** Every round number has exactly the round count's width and reads back as `i + 1`. */
  lemma {:induction false} RoundNumberReadsBack(count: nat, i: nat)
    requires i < count
    ensures var p := RoundNumber(count, i);
      && |p| == |NatToString(count)|
      && AllDigits(p)
      && DecimalValue(p) == i + 1
  {
    NatToStringLengthMonotone(i + 1, count);
    PadLeftZeros(NatToString(i + 1), |NatToString(count)|);
    DecimalValueOfNatToString(i + 1);
  }

  /** The characters a file name may hold: ASCII alphanumerics, '_' and '.'. */
  predicate SafeChars(s: string) {
    forall k | 0 <= k < |s| :: IsAsciiAlnum(s[k]) || s[k] == '_' || s[k] == '.'
  }

  lemma {:induction false} SafeCharsConcat(a: string, b: string)
    requires SafeChars(a) && SafeChars(b)
    ensures SafeChars(a + b)
  {
    forall k | 0 <= k < |a + b|
      ensures IsAsciiAlnum((a + b)[k]) || (a + b)[k] == '_' || (a + b)[k] == '.'
    {
      if k < |a| {
        assert (a + b)[k] == a[k];
      } else {
        assert (a + b)[k] == b[k - |a|];
      }
    }
  }

  /** The tail of a file name from two PascalCase parts keeps to the safe characters and ends in `.csv`. */
  lemma {:induction false} SafeTail(task: string, scene: string)
    requires SafeChars(task) && SafeChars(scene)
    ensures SafeChars("_" + task + "_" + scene + ".csv")
    ensures var t := "_" + task + "_" + scene + ".csv"; |t| >= 4 && t[|t| - 4..] == ".csv"
  {
    assert SafeChars("_") && SafeChars(".csv");
    SafeCharsConcat("_", task);
    SafeCharsConcat("_" + task, "_");
    SafeCharsConcat("_" + task + "_", scene);
    SafeCharsConcat("_" + task + "_" + scene, ".csv");
  }

  lemma {:induction false} RoundNumberSafe(count: nat, i: nat)
    requires i < count
    ensures SafeChars(RoundNumber(count, i))
  {
    var p := RoundNumber(count, i);
    RoundNumberReadsBack(count, i);
    forall k | 0 <= k < |p|
      ensures IsAsciiAlnum(p[k])
    {
      assert IsDigit(p[k]);
    }
  }

  lemma {:induction false} FileNameTailSafe(e: Experiment, i: int)
    requires WellFormed(e) && 0 <= i < |e.rounds|
    ensures SafeChars(FileNameTail(e, i))
    ensures var t := FileNameTail(e, i); |t| >= 4 && t[|t| - 4..] == ".csv"
  {
    assert RoundOk(e.rounds[i], |e.sceneNames.value|, |e.taskNames.value|);
    var r := e.rounds[i];
    SafeTail(ToPascalCase(e.taskNames.value[r.task]), ToPascalCase(e.sceneNames.value[r.scene]));
  }

  /** A file name is safe for any file system, and ends in `.csv`. */
  lemma {:induction false} FileNameCharacters(e: Experiment, i: int)
    requires WellFormed(e) && 0 <= i < |e.rounds|
    ensures SafeChars(FileName(e, i))
    ensures |FileName(e, i)| >= 4 && FileName(e, i)[|FileName(e, i)| - 4..] == ".csv"
  {
    var p := RoundNumber(|e.rounds|, i);
    var tail := FileNameTail(e, i);
    RoundNumberSafe(|e.rounds|, i);
    FileNameTailSafe(e, i);
    SafeCharsConcat(p, tail);
    var f := FileName(e, i);
    assert f == p + tail;
    assert f[|f| - 4..] == tail[|tail| - 4..];
  }

  /** Different rounds of one experiment never share a file name. */
  lemma {:induction false} FileNameInjective(e: Experiment, i: int, j: int)
    requires WellFormed(e) && 0 <= i < |e.rounds| && 0 <= j < |e.rounds| && i != j
    ensures FileName(e, i) != FileName(e, j)
  {
    var n := |e.rounds|;
    var pi, pj := RoundNumber(n, i), RoundNumber(n, j);
    RoundNumberReadsBack(n, i);
    RoundNumberReadsBack(n, j);
    assert |pi| == |pj|;
    assert pi != pj;
    assert FileName(e, i)[..|pi|] == pi;
    assert FileName(e, j)[..|pj|] == pj;
  }
}

=== FILE: experiment_loader.dfy ===
/**
 * The round navigator of a loaded experiment: the current and highest
 * round reached, the previous/next buttons, the caption, and the
 * notification sent to round listeners after every move.
 */
module ExperimentLoader {
  import opened Optional
  import opened Text
  import opened Experiments

  /** What every round listener receives: `None` stands for `null`. */
  datatype RoundChanged = RoundChanged(index: int, round: Option<Round>, filename: Option<string>)

  datatype Loader = Loader(
    current: int,
    maxIndex: int,
    experiment: Option<Experiment>,
    previousEnabled: bool,
    nextEnabled: bool,
    saveName: string,
    errorText: string,
    autoStopListeners: nat,            // SetupAutomaticStop registrations on the writer
    notified: seq<RoundChanged>)

  const NoFileText: string := "Aucun fichier s\U{00E9}lectionn\U{00E9}"

  /** Only a well-formed experiment is ever kept. */
  predicate Valid(l: Loader) {
    l.experiment.Some? ==> WellFormed(l.experiment.value)
  }

  /** The loader after `Start()`. */
  function NewLoader(): (l: Loader)
    ensures Valid(l) && l.experiment.None? && l.current == -1 && l.maxIndex == -1
    ensures !l.previousEnabled && !l.nextEnabled && l.saveName == NoFileText && l.errorText == ""
  {
    Loader(-1, -1, None, false, false, NoFileText, "", 0, [])
  }

  /** The notification for round `index`: the round and its file name, or nulls out of range. */
  function Notification(e: Experiment, index: int): (n: RoundChanged)
    requires WellFormed(e)
    ensures n.index == index
    ensures n.round.None? <==> index < 0 || index >= |e.rounds|
    ensures n.filename.None? <==> index < 0 || index >= |e.rounds|
    ensures n.round.Some? ==> n.round.value == e.rounds[index] && n.filename == Some(FileName(e, index))
  {
    if index < 0 || index >= |e.rounds| then RoundChanged(index, None, None)
    else RoundChanged(index, Some(e.rounds[index]), Some(FileName(e, index)))
  }

  /** `NotifyListeners`. */
  function NotifyListeners(l: Loader): (r: Loader)
    requires Valid(l) && l.experiment.Some?
    ensures r == l.(notified := l.notified + [Notification(l.experiment.value, l.current)])
  {
    l.(notified := l.notified + [Notification(l.experiment.value, l.current)])
  }

  /** `"(" + (index + 1) + "/" + count + ")"`. */
  function TrialText(index: int, count: nat): string
  {
    "(" + IntToString(index + 1) + "/" + NatToString(count) + ")"
  }

  /** The caption under the navigation buttons for round `index`. */
  function Caption(e: Experiment, index: int): string
    requires WellFormed(e)
  {
    var trial := TrialText(index, |e.rounds|);
    if index < 0 then "D\U{00E9}but " + trial
    else if index >= |e.rounds| then "Fin"
    else RoundToString(e, index) + " " + trial
  }

  /** `ChangeRound(step)`. */
  function ChangeRound(l: Loader, step: int): (r: Loader)
    requires Valid(l) && l.experiment.Some?
    ensures Valid(r) && r.experiment == l.experiment
    ensures r.current == l.current + step
    ensures r.maxIndex >= l.maxIndex && r.maxIndex >= r.current
    ensures r.maxIndex == l.maxIndex || r.maxIndex == r.current
    ensures r.previousEnabled <==> r.current >= 0
    ensures var e := l.experiment.value;
      r.nextEnabled <==>
        !(r.current >= |e.rounds|
          || (0 <= r.current < |e.rounds| && e.rounds[r.current].mustRecord && r.current == r.maxIndex))
    ensures r.notified == l.notified + [Notification(l.experiment.value, r.current)]
    ensures r.errorText == l.errorText
    ensures r.saveName == Caption(l.experiment.value, r.current)
    ensures var e := l.experiment.value;
      r.autoStopListeners == l.autoStopListeners
        + (if 0 <= r.current < |e.rounds| && e.rounds[r.current].recordingTime > 0.0 then 1 else 0)
  {
    var e := l.experiment.value;
    var n := |e.rounds|;
    var cur := l.current + step;
    var mx := if l.maxIndex < cur then cur else l.maxIndex;
    var inRange := 0 <= cur < n;
    var saveName := Caption(e, cur);
    var next := !(cur >= n) && !(inRange && e.rounds[cur].mustRecord && mx == cur);
    var auto := if inRange && e.rounds[cur].recordingTime > 0.0 then l.autoStopListeners + 1 else l.autoStopListeners;
    NotifyListeners(l.(current := cur, maxIndex := mx, previousEnabled := cur >= 0, nextEnabled := next,
                       saveName := saveName, autoStopListeners := auto))
  }

  /** `HasRecorded`: a finished recording re-enables "next". */
  function HasRecorded(l: Loader): (r: Loader)
    ensures r.nextEnabled && r == l.(nextEnabled := true)
  {
    l.(nextEnabled := true)
  }

  /** `LoadExperiment` once the script is parsed: both indices back to -1, then round -1 or the error. */
  function LoadExperiment(l: Loader, e: Experiment): (r: Loader)
    requires Valid(l)
    ensures Valid(r)
    ensures r.current == -1 && r.maxIndex == -1
    ensures IsValid(e).None? ==>
      && r.experiment == Some(e) && r.errorText == ""
      && !r.previousEnabled && r.nextEnabled
      && r.saveName == "D\U{00E9}but " + TrialText(-1, |e.rounds|)
      && r.notified == l.notified + [RoundChanged(-1, None, None)]
    ensures IsValid(e).Some? ==>
      && r.experiment.None? && r.errorText == IsValid(e).value
      && !r.previousEnabled && !r.nextEnabled && r.saveName == NoFileText
      && r.notified == l.notified
  {
    var reset := l.(current := -1, maxIndex := -1, experiment := Some(e));
    var error := IsValid(e);
    if error.None? then
      ChangeRound(reset.(errorText := ""), 0)
    else
      reset.(previousEnabled := false, saveName := NoFileText, nextEnabled := false,
             errorText := error.value, experiment := None)
  }

  /** What a click on "previous" or "next" leaves behind: the moved loader, or the state at the point the click threw. */
  datatype Click = Moved(loader: Loader) | Threw(loader: Loader)

  /**
   * `ChangeRound` as written, also with no script loaded. The buttons and
   * both indices are updated before the round count is read; with no
   * experiment that read throws, and the click ends there.
   */
  function ChangeRoundAsWritten(l: Loader, step: int): (c: Click)
    requires Valid(l)
    ensures l.experiment.Some? ==> c == Moved(ChangeRound(l, step))
    ensures l.experiment.None? ==>
      && c.Threw? && c.loader.experiment.None?
      && c.loader.current == l.current + step
      && c.loader.maxIndex >= l.maxIndex && c.loader.maxIndex >= c.loader.current
      && c.loader.previousEnabled && c.loader.nextEnabled
      && c.loader.notified == l.notified && c.loader.saveName == l.saveName
  {
    if l.experiment.Some? then Moved(ChangeRound(l, step))
    else
      var cur := l.current + step;
      Threw(l.(previousEnabled := true, nextEnabled := true, current := cur,
               maxIndex := if l.maxIndex < cur then cur else l.maxIndex))
  }

  /**
   * A recording finished before any script is loaded, or after a rejected
   * one, turns "next" on; clicking it then throws, with both buttons left on
   * and the indices moved.
   */
  lemma {:induction false} NextWithoutScriptThrows(l: Loader, e: Experiment)
    requires Valid(l) && IsValid(e).Some?
    ensures var m := HasRecorded(NewLoader());
      m.nextEnabled && ChangeRoundAsWritten(m, 1).Threw?
    ensures var m := HasRecorded(LoadExperiment(l, e));
      m.nextEnabled && ChangeRoundAsWritten(m, 1).Threw?
      && ChangeRoundAsWritten(m, 1).loader.current == 0
      && ChangeRoundAsWritten(m, 1).loader.previousEnabled
  {
    var m := HasRecorded(LoadExperiment(l, e));
    assert m.experiment.None? && m.current == -1;
  }

  /** `ChangeRound` with the evidently intended guard: with no script loaded a click does nothing. */
  function ChangeRoundGuarded(l: Loader, step: int): (r: Loader)
    requires Valid(l)
    ensures Valid(r) && r.experiment == l.experiment
    ensures l.experiment.None? ==> r == l
    ensures l.experiment.Some? ==> ChangeRoundAsWritten(l, step) == Moved(r)
  {
    if l.experiment.None? then l else ChangeRound(l, step)
  }

  /**
   * With the guard, the same clicks never throw: the loader with no script
   * keeps its indices, its buttons' other state and its caption, and
   * sends no notification.
   */
  lemma {:induction false} GuardedNextWithoutScript(l: Loader, e: Experiment)
    requires Valid(l) && IsValid(e).Some?
    ensures var m := HasRecorded(LoadExperiment(l, e));
      var r := ChangeRoundGuarded(m, 1);
      r.current == -1 && r.maxIndex == -1 && r.saveName == NoFileText
      && !r.previousEnabled && r.notified == l.notified
    ensures var r := ChangeRoundGuarded(HasRecorded(NewLoader()), 1);
      r.current == -1 && r.saveName == NoFileText && r.notified == []
  {
    var m := HasRecorded(LoadExperiment(l, e));
    assert m.experiment.None?;
  }

  /** A round that must be recorded holds "next" the first time it is reached, until `HasRecorded`. */
  lemma {:induction false} MustRecordHoldsNext(l: Loader, step: int)
    requires Valid(l) && l.experiment.Some?
    requires var i := l.current + step; 0 <= i < |l.experiment.value.rounds| && i > l.maxIndex
    requires l.experiment.value.rounds[l.current + step].mustRecord
    ensures !ChangeRound(l, step).nextEnabled
    ensures HasRecorded(ChangeRound(l, step)).nextEnabled
  {
    var r := ChangeRound(l, step);
    var i := l.current + step;
    assert r.current == i && r.maxIndex >= i;
    assert r.maxIndex == i;
    assert !r.nextEnabled;
  }

  /** Coming back to a round below the highest one reached never holds "next". */
  lemma {:induction false} RevisitKeepsNext(l: Loader, step: int)
    requires Valid(l) && l.experiment.Some?
    requires 0 <= l.current + step < l.maxIndex
    requires l.maxIndex < |l.experiment.value.rounds|
    ensures ChangeRound(l, step).nextEnabled
  {
  }

  /** `ChangeRound` of every step, in order. */
  function ChangeRounds(l: Loader, steps: seq<int>): (r: Loader)
    requires Valid(l) && l.experiment.Some?
    ensures Valid(r) && r.experiment == l.experiment
    decreases |steps|
  {
    if |steps| == 0 then l else ChangeRounds(ChangeRound(l, steps[0]), steps[1..])
  }

  /** The highest round never goes down, and is never below the current round. */
  lemma {:induction false} MaxIndexMonotone(l: Loader, steps: seq<int>)
    requires Valid(l) && l.experiment.Some? && l.maxIndex >= l.current
    ensures ChangeRounds(l, steps).maxIndex >= l.maxIndex
    ensures ChangeRounds(l, steps).maxIndex >= ChangeRounds(l, steps).current
    decreases |steps|
  {
    if |steps| > 0 {
      MaxIndexMonotone(ChangeRound(l, steps[0]), steps[1..]);
    }
  }
}

=== FILE: keyboard.dfy ===
/**
 * The on-screen keyboard: every key appends its label to the input text,
 * except "<", which erases the last character.
 */
module KeyBoard {
  import opened Optional

  datatype KeyBoard = KeyBoard(text: string, keys: seq<string>)

  const Backspace: string := "<"

  /** `OnKeyPressed`; `None` is the exception `Remove` throws on an empty text. */
  function OnKeyPressed(k: KeyBoard, key: string): (r: Option<KeyBoard>)
    ensures r.None? <==> key == Backspace && |k.text| == 0
    ensures r.Some? ==> r.value.keys == k.keys
    ensures r.Some? && key == Backspace ==> r.value.text + [k.text[|k.text| - 1]] == k.text
    ensures key != Backspace ==>
      (r.Some? && |r.value.text| == |k.text| + |key|
       && r.value.text[..|k.text|] == k.text && r.value.text[|k.text|..] == key)
  {
    if key == Backspace then
      if |k.text| == 0 then None else Some(k.(text := k.text[..|k.text| - 1]))
    else Some(k.(text := k.text + key))
  }

  /** A one-character key, then "<", gives the text back. */
  lemma {:induction false} KeyThenBackspace(k: KeyBoard, key: string)
    requires |key| == 1 && key != Backspace
    ensures OnKeyPressed(OnKeyPressed(k, key).value, Backspace) == Some(k)
  {
    assert (k.text + key)[..|k.text|] == k.text;
  }

  /** Presses in order; `None` as soon as one throws. */
  function Press(k: KeyBoard, presses: seq<string>): Option<KeyBoard>
    decreases |presses|
  {
    if |presses| == 0 then Some(k)
    else match OnKeyPressed(k, presses[0])
      case None => None
      case Some(k2) => Press(k2, presses[1..])
  }

  function Backspaces(n: nat): (b: seq<string>)
    ensures |b| == n && forall i | 0 <= i < n :: b[i] == Backspace
  {
    if n == 0 then [] else [Backspace] + Backspaces(n - 1)
  }

  /** Pressing `presses` then `more` is pressing `presses + more`. */
  lemma {:induction false} PressConcat(k: KeyBoard, presses: seq<string>, more: seq<string>)
    requires Press(k, presses).Some?
    ensures Press(k, presses + more) == Press(Press(k, presses).value, more)
    decreases |presses|
  {
    if |presses| > 0 {
      assert (presses + more)[0] == presses[0];
      assert (presses + more)[1..] == presses[1..] + more;
      PressConcat(OnKeyPressed(k, presses[0]).value, presses[1..], more);
    } else {
      assert presses + more == more;
    }
  }

  /** Pressing one-character keys appends their characters. */
  lemma {:induction false} TypeKeys(k: KeyBoard, presses: seq<string>)
    requires forall i | 0 <= i < |presses| :: |presses[i]| == 1 && presses[i] != Backspace
    ensures Press(k, presses).Some?
    ensures |Press(k, presses).value.text| == |k.text| + |presses|
    ensures Press(k, presses).value.text[..|k.text|] == k.text
    ensures Press(k, presses).value.keys == k.keys
    decreases |presses|
  {
    if |presses| > 0 {
      var k2 := OnKeyPressed(k, presses[0]).value;
      TypeKeys(k2, presses[1..]);
      var t := Press(k, presses).value.text;
      assert t[..|k2.text|][..|k.text|] == t[..|k.text|];
    }
  }

  /** `n` presses of "<" on a text of at least `n` characters drop its last `n`. */
  lemma {:induction false} EraseLast(k: KeyBoard, n: nat)
    requires n <= |k.text|
    ensures Press(k, Backspaces(n)) == Some(k.(text := k.text[..|k.text| - n]))
    decreases n
  {
    if n > 0 {
      var k2 := k.(text := k.text[..|k.text| - 1]);
      assert Backspaces(n)[1..] == Backspaces(n - 1);
      assert OnKeyPressed(k, Backspaces(n)[0]) == Some(k2);
      EraseLast(k2, n - 1);
      assert k2.text[..|k2.text| - (n - 1)] == k.text[..|k.text| - n];
    } else {
      assert k.text[..|k.text|] == k.text;
    }
  }

  /** Typing any one-character keys and then as many "<" restores the text. */
  lemma {:induction false} TypeThenErase(k: KeyBoard, presses: seq<string>)
    requires forall i | 0 <= i < |presses| :: |presses[i]| == 1 && presses[i] != Backspace
    ensures Press(k, presses + Backspaces(|presses|)) == Some(k)
  {
    TypeKeys(k, presses);
    PressConcat(k, presses, Backspaces(|presses|));
    var typed := Press(k, presses).value;
    EraseLast(typed, |presses|);
  }
}

=== FILE: optional.dfy ===
/** The C# `null` of a reference, and the "no value" of a failed read. */
module Optional {

  datatype Option<+T> = None | Some(value: T)
}

=== FILE: packets.dfy ===
/**
 * A packet as the ordered list of typed fields it was written with.
 * Byte framing, endianness and the length prefix are not modelled: a reader
 * consumes fields front to back, and reading a field of another kind, or
 * past the last field, is a decoding failure.
 */
module Packets {
  import opened Optional
  import Protocol

  /** `System.Numerics.Vector3`, components as reals. */
  datatype Vec3 = Vec3(x: real, y: real, z: real)

  /** One tracked object's position and Euler rotation. */
  datatype Pose = Pose(position: Vec3, rotation: Vec3)

  datatype Field =
    | IntField(i: int)
    | FloatField(f: real)
    | BoolField(b: bool)
    | StrField(s: string)
    | Vec3Field(v: Vec3)

  type Packet = seq<Field>

  /** A value read from the front of a packet, and the fields left after it. */
  datatype Read<T> = Read(value: T, rest: Packet)

  function ReadInt(p: Packet): (r: Option<Read<int>>)
    ensures r.Some? <==> |p| > 0 && p[0].IntField?
    ensures r.Some? ==> p == [IntField(r.value.value)] + r.value.rest
  {
    if |p| > 0 && p[0].IntField? then Some(Read(p[0].i, p[1..])) else None
  }

  function ReadFloat(p: Packet): (r: Option<Read<real>>)
    ensures r.Some? <==> |p| > 0 && p[0].FloatField?
    ensures r.Some? ==> p == [FloatField(r.value.value)] + r.value.rest
  {
    if |p| > 0 && p[0].FloatField? then Some(Read(p[0].f, p[1..])) else None
  }

  function ReadBool(p: Packet): (r: Option<Read<bool>>)
    ensures r.Some? <==> |p| > 0 && p[0].BoolField?
    ensures r.Some? ==> p == [BoolField(r.value.value)] + r.value.rest
  {
    if |p| > 0 && p[0].BoolField? then Some(Read(p[0].b, p[1..])) else None
  }

  function ReadString(p: Packet): (r: Option<Read<string>>)
    ensures r.Some? <==> |p| > 0 && p[0].StrField?
    ensures r.Some? ==> p == [StrField(r.value.value)] + r.value.rest
  {
    if |p| > 0 && p[0].StrField? then Some(Read(p[0].s, p[1..])) else None
  }

  function ReadVector3(p: Packet): (r: Option<Read<Vec3>>)
    ensures r.Some? <==> |p| > 0 && p[0].Vec3Field?
    ensures r.Some? ==> p == [Vec3Field(r.value.value)] + r.value.rest
  {
    if |p| > 0 && p[0].Vec3Field? then Some(Read(p[0].v, p[1..])) else None
  }

  /** A request packet: the kind's discriminant, then its one payload field. */
  function Request(t: Protocol.PacketType, payload: Field): Packet
  {
    [IntField(Protocol.ToInt(t)), payload]
  }

  /** Position then rotation for each object, in list order. */
  function PoseFields(poses: seq<Pose>): (fs: Packet)
    ensures |fs| == 2 * |poses|
  {
    if |poses| == 0 then []
    else [Vec3Field(poses[0].position), Vec3Field(poses[0].rotation)] + PoseFields(poses[1..])
  }

  /** The pose-stream layout: kind, timestamp, then every object's pose. */
  function EntryPacket(timestamp: real, poses: seq<Pose>): Packet
  {
    [IntField(Protocol.ToInt(Protocol.CsvWriterDataEntry)), FloatField(timestamp)] + PoseFields(poses)
  }

  /** The fields of `PoseFields` in place: position at `2k`, rotation at `2k + 1`. */
  lemma {:induction false} PoseFieldsAt(poses: seq<Pose>, k: int)
    requires 0 <= k < |poses|
    ensures PoseFields(poses)[2 * k] == Vec3Field(poses[k].position)
    ensures PoseFields(poses)[2 * k + 1] == Vec3Field(poses[k].rotation)
    decreases |poses|
  {
    if k > 0 {
      PoseFieldsAt(poses[1..], k - 1);
    }
  }

  /** A pose-stream packet is the kind, the timestamp, then a position and a rotation per object. */
  lemma {:induction false} EntryPacketLayout(timestamp: real, poses: seq<Pose>)
    ensures var p := EntryPacket(timestamp, poses);
      && |p| == 2 + 2 * |poses|
      && p[0] == IntField(2) && p[1] == FloatField(timestamp)
      && (forall k | 0 <= k < |poses| ::
            p[2 + 2 * k] == Vec3Field(poses[k].position) && p[3 + 2 * k] == Vec3Field(poses[k].rotation))
  {
    var p := EntryPacket(timestamp, poses);
    forall k | 0 <= k < |poses|
      ensures p[2 + 2 * k] == Vec3Field(poses[k].position) && p[3 + 2 * k] == Vec3Field(poses[k].rotation)
    {
      PoseFieldsAt(poses, k);
    }
  }

  /** Reads `count` (position, rotation) pairs, in order. */
  function ReadPoses(p: Packet, count: nat): (r: Option<Read<seq<Pose>>>)
    ensures r.Some? ==> |r.value.value| == count
    ensures r.Some? ==> p == PoseFields(r.value.value) + r.value.rest
    decreases count
  {
    if count == 0 then Some(Read([], p))
    else
      match ReadVector3(p)
      case None => None
      case Some(pos) =>
        match ReadVector3(pos.rest)
        case None => None
        case Some(rot) =>
          match ReadPoses(rot.rest, count - 1)
          case None => None
          case Some(more) =>
            var poses := [Pose(pos.value, rot.value)] + more.value;
            assert poses[1..] == more.value;
            assert PoseFields(poses) == [Vec3Field(pos.value), Vec3Field(rot.value)] + PoseFields(more.value);
            Some(Read(poses, more.rest))
  }

  /** Reading as many poses as were written gives them back, with the rest untouched. */
  lemma {:induction false} ReadPosesOfPoseFields(poses: seq<Pose>, rest: Packet)
    ensures ReadPoses(PoseFields(poses) + rest, |poses|) == Some(Read(poses, rest))
    decreases |poses|
  {
    if |poses| > 0 {
      var p := PoseFields(poses) + rest;
      var tail := PoseFields(poses[1..]) + rest;
      assert p == [Vec3Field(poses[0].position), Vec3Field(poses[0].rotation)] + tail;
      assert p[0] == Vec3Field(poses[0].position);
      assert p[1..] == [Vec3Field(poses[0].rotation)] + tail;
      assert ReadVector3(p) == Some(Read(poses[0].position, [Vec3Field(poses[0].rotation)] + tail));
      assert ([Vec3Field(poses[0].rotation)] + tail)[1..] == tail;
      assert ReadVector3([Vec3Field(poses[0].rotation)] + tail) == Some(Read(poses[0].rotation, tail));
      ReadPosesOfPoseFields(poses[1..], rest);
      assert poses == [Pose(poses[0].position, poses[0].rotation)] + poses[1..];
    } else {
      assert PoseFields(poses) + rest == rest;
    }
  }

  /** Expecting more objects than were written exhausts the packet: a decoding failure. */
  lemma {:induction false} ReadPosesTooMany(poses: seq<Pose>, count: nat)
    requires count > |poses|
    ensures ReadPoses(PoseFields(poses), count) == None
    decreases |poses|
  {
    if |poses| > 0 {
      assert PoseFields(poses) == [Vec3Field(poses[0].position), Vec3Field(poses[0].rotation)] + PoseFields(poses[1..]);
      ReadPosesTooMany(poses[1..], count - 1);
    }
  }

  /** Expecting fewer objects reads the first ones and leaves the others' fields unread. */
  lemma {:induction false} ReadPosesTooFew(poses: seq<Pose>, count: nat)
    requires count <= |poses|
    ensures ReadPoses(PoseFields(poses), count) == Some(Read(poses[..count], PoseFields(poses[count..])))
  {
    var front, back := poses[..count], poses[count..];
    assert front + back == poses;
    PoseFieldsConcat(front, back);
    assert |front| == count;
    ReadPosesOfPoseFields(front, PoseFields(back));
  }

  lemma {:induction false} PoseFieldsConcat(a: seq<Pose>, b: seq<Pose>)
    ensures PoseFields(a + b) == PoseFields(a) + PoseFields(b)
    decreases |a|
  {
    if |a| > 0 {
      assert (a + b)[1..] == a[1..] + b;
      PoseFieldsConcat(a[1..], b);
    } else {
      assert a + b == b;
    }
  }
}

=== FILE: patient.dfy ===
/**
 * The patient application, which hosts the server: it broadcasts the poses
 * of its tracked objects every physics step and shows the address the
 * others should connect to.
 */
module Patient {
  import opened Text
  import opened Packets

  datatype Patient = Patient(
    objects: seq<Pose>,                // local position and Euler rotation of each object
    timestamp: real,
    connexionPanel: bool,
    broadcast: seq<Packet>)            // packets sent to every client

  const NoAddressText: string := "Aucune adresse IP trouv\U{00E9}e"

  /** `FixedUpdate` with step `dt`: broadcast the frame, connected clients or not, and advance the clock. */
  function Tick(p: Patient, dt: real): (r: Patient)
    ensures r.broadcast == p.broadcast + [EntryPacket(p.timestamp, p.objects)]
    ensures r.timestamp == p.timestamp + dt
    ensures r.objects == p.objects && r.connexionPanel == p.connexionPanel
  {
    p.(broadcast := p.broadcast + [EntryPacket(p.timestamp, p.objects)], timestamp := p.timestamp + dt)
  }

  /** Every tick's frame, connected clients or not: kind, timestamp, then a position and a rotation per object. */
  lemma {:induction false} TickLayout(p: Patient, dt: real)
    ensures var f := Tick(p, dt).broadcast[|p.broadcast|];
      && |f| == 2 + 2 * |p.objects|
      && f[0] == IntField(2) && f[1] == FloatField(p.timestamp)
      && (forall k | 0 <= k < |p.objects| ::
            f[2 + 2 * k] == Vec3Field(p.objects[k].position) && f[3 + 2 * k] == Vec3Field(p.objects[k].rotation))
  {
    EntryPacketLayout(p.timestamp, p.objects);
  }

  function Sum(xs: seq<real>): real
  {
    if |xs| == 0 then 0.0 else xs[0] + Sum(xs[1..])
  }

  /** One `Tick` per step, in order. */
  function Ticks(p: Patient, dts: seq<real>): (r: Patient)
    ensures r.objects == p.objects && |r.broadcast| == |p.broadcast| + |dts|
    decreases |dts|
  {
    if |dts| == 0 then p else Ticks(Tick(p, dts[0]), dts[1..])
  }

  /**
   * Every step broadcasts exactly one frame, stamped with the time elapsed
   * before it: frame `i` carries the sum of the first `i` steps.
   */
  lemma {:induction false} TicksStampFrames(p: Patient, dts: seq<real>)
    ensures var r := Ticks(p, dts);
      && |r.broadcast| == |p.broadcast| + |dts|
      && r.broadcast[..|p.broadcast|] == p.broadcast
      && r.timestamp == p.timestamp + Sum(dts)
      && forall i | 0 <= i < |dts| ::
           r.broadcast[|p.broadcast| + i] == EntryPacket(p.timestamp + Sum(dts[..i]), p.objects)
    decreases |dts|
  {
    if |dts| > 0 {
      var q := Tick(p, dts[0]);
      var r := Ticks(p, dts);
      TicksStampFrames(q, dts[1..]);
      assert r == Ticks(q, dts[1..]);
      assert r.broadcast[..|p.broadcast|] == q.broadcast[..|q.broadcast|][..|p.broadcast|];
      forall i | 0 <= i < |dts|
        ensures r.broadcast[|p.broadcast| + i] == EntryPacket(p.timestamp + Sum(dts[..i]), p.objects)
      {
        if i == 0 {
          assert r.broadcast[|p.broadcast|] == q.broadcast[|p.broadcast|];
        } else {
          assert dts[..i][1..] == dts[1..][..i - 1];
          assert r.broadcast[|p.broadcast| + i] == r.broadcast[|q.broadcast| + (i - 1)];
        }
      }
    }
  }

  /** `ShowIpAddress`: the first address and the port, how many others exist, or that there are none. */
  function ShowIpAddress(ips: seq<string>, port: nat): (text: string)
    ensures |ips| == 0 ==> text == NoAddressText
    ensures |ips| >= 1 ==> |text| > |ips[0]| && text[..|ips[0]| + 1] == ips[0] + ":"
    ensures |ips| == 1 ==> text[|ips[0]| + 1..] == NatToString(port)
    ensures |ips| > 1 ==> text[|ips[0]| + 1..] == NatToString(port) + " (+" + NatToString(|ips| - 1) + ")"
  {
    if |ips| > 1 then ips[0] + ":" + NatToString(port) + " (+" + NatToString(|ips| - 1) + ")"
    else if |ips| == 0 then NoAddressText
    else ips[0] + ":" + NatToString(port)
  }

  /** `ClientDisconnected`: the connection panel comes back. */
  function ClientDisconnected(p: Patient): (r: Patient)
    ensures r.connexionPanel && r.broadcast == p.broadcast && r.timestamp == p.timestamp
    ensures r.objects == p.objects
  {
    p.(connexionPanel := true)
  }
}

=== FILE: protocol.dfy ===
/**
 * The packet kinds both ends agree on and the protocol version string
 * the server announces first on every connection.
 */
module Protocol {
  import opened Optional

  /** The version string compiled into every build. */
  const ProtocolVersion: string := "1.0.0"

  /** The closed set of packet kinds; discriminant 1 is left unassigned. */
  datatype PacketType = Version | CsvWriterDataEntry | Int | ChangeScene | ShowYFrame

  /** The wire discriminant, `(int)type`. */
  function ToInt(t: PacketType): (n: int)
    ensures 0 <= n <= 5 && n != 1
  {
    match t
    case Version => 0
    case CsvWriterDataEntry => 2
    case Int => 3
    case ChangeScene => 4
    case ShowYFrame => 5
  }

  /** The named member a received discriminant selects, or `None` for the `default:` branch. */
  function FromInt(n: int): (t: Option<PacketType>)
    ensures t.Some? ==> ToInt(t.value) == n
    ensures t.None? <==> n < 0 || n == 1 || n > 5
  {
    if n == 0 then Some(Version)
    else if n == 2 then Some(CsvWriterDataEntry)
    else if n == 3 then Some(Int)
    else if n == 4 then Some(ChangeScene)
    else if n == 5 then Some(ShowYFrame)
    else None
  }

  /** Decoding a written discriminant gives back the packet kind. */
  lemma {:induction false} FromIntToInt(t: PacketType)
    ensures FromInt(ToInt(t)) == Some(t)
  {
  }

  /** Distinct kinds have distinct discriminants. */
  lemma {:induction false} ToIntInjective(a: PacketType, b: PacketType)
    ensures ToInt(a) == ToInt(b) <==> a == b
  {
  }

  /** The values written by the source's enum declaration. */
  lemma {:induction false} Discriminants()
    ensures ToInt(Version) == 0 && ToInt(CsvWriterDataEntry) == 2 && ToInt(Int) == 3
    ensures ToInt(ChangeScene) == 4 && ToInt(ShowYFrame) == 5
    ensures FromInt(1) == None
    ensures ProtocolVersion == "1.0.0"
  {
  }
}

=== FILE: scene_manager.dfy ===
/**
 * The scene switcher: a list of scene objects of which exactly the one at
 * the current index is active. The index is never range-checked, so an index
 * outside the list leaves every scene inactive.
 */
module SceneManager {

  datatype Scenes = Scenes(names: seq<string>, active: seq<bool>, current: int)

  /** The activation flags agree with the current index. */
  predicate Consistent(s: Scenes) {
    |s.active| == |s.names| && forall i | 0 <= i < |s.active| :: s.active[i] == (i == s.current)
  }

  /** `ActivateScene`: one flag per scene, set exactly at the current index. */
  function ActivateScene(s: Scenes): (r: Scenes)
    ensures Consistent(r)
    ensures r.names == s.names && r.current == s.current
  {
    s.(active := seq(|s.names|, i => i == s.current))
  }

  /** The switcher after `Start()`: the first scene shown. */
  function NewScenes(names: seq<string>): (r: Scenes)
    ensures Consistent(r) && r.current == 0 && r.names == names
  {
    ActivateScene(Scenes(names, seq(|names|, _ => true), 0))
  }

  /** `ChangeScene(n)`: any index is taken as it is. */
  function ChangeScene(s: Scenes, n: int): (r: Scenes)
    ensures Consistent(r)
    ensures r.current == n && r.names == s.names
  {
    ActivateScene(s.(current := n))
  }

  /** The indices of the scenes shown. */
  function ActiveIndices(s: Scenes): set<int>
  {
    set i | 0 <= i < |s.active| && s.active[i]
  }

  /** At most one scene is shown: the current one when it is in range, none otherwise. */
  lemma {:induction false} ActiveIsCurrent(s: Scenes)
    requires Consistent(s)
    ensures 0 <= s.current < |s.names| ==> ActiveIndices(s) == {s.current}
    ensures !(0 <= s.current < |s.names|) ==> ActiveIndices(s) == {}
  {
    if 0 <= s.current < |s.names| {
      assert s.current in ActiveIndices(s);
    }
  }

  /** Changing twice is changing once to the last index. */
  lemma {:induction false} ChangeSceneLastWins(s: Scenes, a: int, b: int)
    ensures ChangeScene(ChangeScene(s, a), b) == ChangeScene(s, b)
  {
  }
}

=== FILE: session.dfy ===
/**
 * The applications together: what the patient shows and streams, as the
 * clinician reads and records it.
 */
module Session {
  import opened Optional
  import opened Text
  import opened Packets
  import opened Endpoints
  import CsvWriter
  import Clinician
  import Client
  import Patient

  /** The address the patient shows for a single network interface is accepted and parsed back by the clinician. */
  lemma {:induction false} ShownAddressAccepted(octets: seq<string>, port: nat, c: Clinician.Clinician)
    requires OctetsOk(octets) && port <= 99999
    requires !c.link.isConnecting
    ensures var shown := Patient.ShowIpAddress([Join(octets, '.')], port);
      && Parse(shown) == Some(Target(Join(octets, '.'), port))
      && Clinician.ValidateIpAddress(c.(ui := c.ui.(ipText := shown))).ui.connectInteractable
  {
    var shown := Patient.ShowIpAddress([Join(octets, '.')], port);
    assert shown == Render(octets, NatToString(port));
    ParseRender(octets, port);
    TrimKeepsMatch(shown);
  }

  /** With several interfaces, the shown text carries " (+k)" and must be cut before it is accepted. */
  lemma {:induction false} SeveralAddressesRefused(ips: seq<string>, port: nat)
    requires |ips| > 1 && ':' !in ips[0]
    ensures Parse(Patient.ShowIpAddress(ips, port)).None?
  {
    var digits := NatToString(port);
    var k := NatToString(|ips| - 1);
    var tail := digits + " (+" + k + ")";
    assert Patient.ShowIpAddress(ips, port) == ips[0] + ":" + tail;
    DigitsExclude(digits, ':');
    DigitsExclude(k, ':');
    assert ':' !in tail;
    assert tail[|digits|] == ' ' && !IsDigit(tail[|digits|]);
    assert tail[|tail| - 1] == ')';
    RefusedPort(ips[0], tail);
  }

  /** The clinician's handling of each packet in turn; `None` once one cannot be decoded. */
  function ReceiveAll(s: Clinician.Clinician, packets: seq<Packet>, fmt: real -> string): (r: Option<Clinician.Clinician>)
    requires Clinician.Valid(s)
    ensures r.Some? ==> Clinician.Valid(r.value)
    decreases |packets|
  {
    if |packets| == 0 then Some(s)
    else match Clinician.PacketReceived(s, packets[0], fmt)
      case None => None
      case Some(s2) => ReceiveAll(s2, packets[1..], fmt)
  }

  /** The frames of a patient run: one per step, stamped with the time before it. */
  function Frames(t0: real, dts: seq<real>, objects: seq<Pose>): (es: seq<CsvWriter.DataEntry>)
    ensures |es| == |dts|
  {
    seq(|dts|, i requires 0 <= i < |dts| => CsvWriter.DataEntry(t0 + Patient.Sum(dts[..i]), objects))
  }

  /** The pose-stream packet of every entry, in order. */
  function EntryPackets(entries: seq<CsvWriter.DataEntry>): (ps: seq<Packet>)
    ensures |ps| == |entries|
  {
    seq(|entries|, i requires 0 <= i < |entries| => EntryPacket(entries[i].timestamp, entries[i].poses))
  }

  /** Pose-stream packets with the clinician's object count are recorded as their entries, in order. */
  lemma {:induction false} ReceiveEntries(s: Clinician.Clinician, entries: seq<CsvWriter.DataEntry>, fmt: real -> string)
    requires Clinician.Valid(s)
    requires forall i | 0 <= i < |entries| :: |entries[i].poses| == |s.objects|
    ensures var r := ReceiveAll(s, EntryPackets(entries), fmt);
      r.Some? && r.value.writer == CsvWriter.AddAll(s.writer, entries, fmt)
    decreases |entries|
  {
    var packets := EntryPackets(entries);
    if |entries| > 0 {
      var e := entries[0];
      Clinician.EntryRoundTrip(s, e.timestamp, e.poses, fmt);
      var s2 := Clinician.PacketReceived(s, packets[0], fmt).value;
      assert packets[1..] == EntryPackets(entries[1..]);
      assert ReceiveAll(s, packets, fmt) == ReceiveAll(s2, packets[1..], fmt);
      ReceiveEntries(s2, entries[1..], fmt);
    }
  }

  /**
   * A recording made while the patient streams: if the clinician moves as
   * many objects as the patient tracks, starts recording, receives every
   * frame of `dts` steps and stops, the file holds the header then exactly
   * one row per frame, in order, with the patient's timestamps.
   */
  lemma {:induction false} PatientStreamRecorded(p: Patient.Patient, dts: seq<real>, c: Clinician.Clinician, fmt: real -> string)
    requires Clinician.Valid(c) && c.writer.openPath.None? && |c.objects| == |p.objects|
    ensures var started := c.(writer := CsvWriter.StartRecording(c.writer));
      var frames := Patient.Ticks(p, dts).broadcast[|p.broadcast|..];
      var r := ReceiveAll(started, frames, fmt);
      && r.Some?
      && var w := CsvWriter.StopRecording(r.value.writer);
         && CsvWriter.FilePath(c.writer) in w.files
         && w.files[CsvWriter.FilePath(c.writer)]
              == [CsvWriter.Header(c.writer.objectNames)] + CsvWriter.RowTexts(Frames(p.timestamp, dts, p.objects), fmt)
  {
    var started := c.(writer := CsvWriter.StartRecording(c.writer));
    Patient.TicksStampFrames(p, dts);
    var t := Patient.Ticks(p, dts);
    var entries := Frames(p.timestamp, dts, p.objects);
    var frames := t.broadcast[|p.broadcast|..];
    assert frames == EntryPackets(entries) by {
      forall i | 0 <= i < |entries|
        ensures frames[i] == EntryPacket(entries[i].timestamp, entries[i].poses)
      {
        assert frames[i] == t.broadcast[|p.broadcast| + i];
      }
    }
    ReceiveEntries(started, entries, fmt);
    CsvWriter.RecordSession(c.writer, entries, fmt);
  }

  /** A frame the client sends while connected is recorded by the clinician as that frame. */
  lemma {:induction false} ClientFrameRecorded(cl: Client.Client, dt: real, s: Clinician.Clinician, fmt: real -> string)
    requires cl.link.isConnected && Clinician.Valid(s) && |s.objects| == |cl.objects|
    ensures var frame := Client.Tick(cl, dt, true).link.sent[|cl.link.sent|];
      Clinician.PacketReceived(s, frame, fmt)
        == Some(s.(objects := cl.objects,
                   writer := CsvWriter.AddData(s.writer, CsvWriter.DataEntry(cl.timestamp, cl.objects), fmt)))
  {
    Clinician.EntryRoundTrip(s, cl.timestamp, cl.objects, fmt);
  }
}

=== FILE: text.dfy ===
/**
 * String helpers shared by the model: decimal digits as `int.ToString()`
 * prints them and `int.Parse` reads them, `PadLeft`, `String.Trim`,
 * and joining/splitting on a separator character.
 */
module Text {

  predicate IsDigit(c: char) {
    '0' <= c <= '9'
  }

  predicate AllDigits(s: string) {
    forall i | 0 <= i < |s| :: IsDigit(s[i])
  }

  /** The characters the pattern `[a-zA-Z0-9]` accepts. */
  predicate IsAsciiAlnum(c: char) {
    IsDigit(c) || 'a' <= c <= 'z' || 'A' <= c <= 'Z'
  }

  /** `char.ToUpper`, restricted to ASCII letters. */
  function ToUpper(c: char): (u: char)
    ensures 'a' <= c <= 'z' ==> 'A' <= u <= 'Z'
    ensures !('a' <= c <= 'z') ==> u == c
    ensures IsAsciiAlnum(u) <==> IsAsciiAlnum(c)
  {
    if 'a' <= c <= 'z' then (c as int - 32) as char else c
  }

  function DigitChar(d: nat): (c: char)
    requires d < 10
    ensures IsDigit(c)
  {
    ('0' as int + d) as char
  }

  function DigitValue(c: char): (d: nat)
    requires IsDigit(c)
    ensures d < 10 && DigitChar(d) == c
  {
    c as int - '0' as int
  }

  /** Decimal text of a natural number, most significant digit first, no leading zero. */
  function NatToString(n: nat): (s: string)
    ensures 1 <= |s| && AllDigits(s)
    ensures |s| > 1 ==> s[0] != '0'
    decreases n
  {
    if n < 10 then [DigitChar(n)] else NatToString(n / 10) + [DigitChar(n % 10)]
  }

  /** `int.ToString()` in the invariant culture. */
  function IntToString(i: int): (s: string)
    ensures i >= 0 ==> s == NatToString(i)
    ensures i < 0 ==> |s| >= 2 && s[0] == '-' && s[1..] == NatToString(-i)
  {
    if i < 0 then "-" + NatToString(-i) else NatToString(i)
  }

  /** The value `int.Parse` gives a string of decimal digits (leading zeros allowed). */
  function DecimalValue(s: string): nat
    requires AllDigits(s)
  {
    if |s| == 0 then 0 else DecimalValue(s[..|s| - 1]) * 10 + DigitValue(s[|s| - 1])
  }

  lemma {:induction false} DecimalValueOfNatToString(n: nat)
    ensures DecimalValue(NatToString(n)) == n
    decreases n
  {
    var s := NatToString(n);
    if n >= 10 {
      assert s[..|s| - 1] == NatToString(n / 10);
      DecimalValueOfNatToString(n / 10);
    }
  }

  /** A run of '0' characters. */
  predicate AllZeros(s: string) {
    forall i | 0 <= i < |s| :: s[i] == '0'
  }

  lemma {:induction false} DecimalValueOfZeros(z: string)
    requires AllZeros(z)
    ensures AllDigits(z) && DecimalValue(z) == 0
    decreases |z|
  {
    if |z| > 0 {
      DecimalValueOfZeros(z[..|z| - 1]);
    }
  }

  /** Leading zeros do not change the parsed value. */
  lemma {:induction false} DecimalValueIgnoresLeadingZeros(z: string, s: string)
    requires AllZeros(z) && AllDigits(s)
    ensures AllDigits(z + s) && DecimalValue(z + s) == DecimalValue(s)
    decreases |s|
  {
    DecimalValueOfZeros(z);
    if |s| > 0 {
      assert (z + s)[..|z + s| - 1] == z + s[..|s| - 1];
      DecimalValueIgnoresLeadingZeros(z, s[..|s| - 1]);
    } else {
      assert z + s == z;
    }
  }

  /** A larger number never has fewer digits. */
  lemma {:induction false} NatToStringLengthMonotone(a: nat, b: nat)
    requires a <= b
    ensures |NatToString(a)| <= |NatToString(b)|
    decreases b
  {
    if a >= 10 {
      NatToStringLengthMonotone(a / 10, b / 10);
    }
  }

  /** `s.PadLeft(width, c)`. */
  function PadLeft(s: string, width: int, c: char): (r: string)
    ensures |r| == if |s| >= width then |s| else width
    ensures r[|r| - |s|..] == s
    ensures forall i | 0 <= i < |r| - |s| :: r[i] == c
  {
    if |s| >= width then s else seq(width - |s|, _ => c) + s
  }

  /** Padding digits on the left with '0' keeps their value. */
  lemma {:induction false} PadLeftZeros(s: string, width: int)
    requires AllDigits(s)
    ensures AllDigits(PadLeft(s, width, '0'))
    ensures DecimalValue(PadLeft(s, width, '0')) == DecimalValue(s)
  {
    if |s| < width {
      var zeros := seq(width - |s|, _ => '0');
      assert PadLeft(s, width, '0') == zeros + s;
      DecimalValueIgnoresLeadingZeros(zeros, s);
    }
  }

  /** `string.Join(sep, parts)`. */
  function Join(parts: seq<string>, sep: char): string
  {
    if |parts| == 0 then ""
    else if |parts| == 1 then parts[0]
    else parts[0] + [sep] + Join(parts[1..], sep)
  }

  /** Index of the first `c` in `s`, or `|s|` when there is none. */
  function IndexOf(s: string, c: char): (i: nat)
    ensures i <= |s|
    ensures i < |s| ==> s[i] == c
    ensures c !in s[..i]
  {
    if |s| == 0 then 0
    else if s[0] == c then 0
    else
      var j := IndexOf(s[1..], c);
      assert s[..1 + j] == [s[0]] + s[1..][..j];
      1 + j
  }

  /** `s.Split(sep)`: the fields between separators, empty ones kept. */
  function Split(s: string, sep: char): (parts: seq<string>)
    ensures |parts| >= 1
    ensures forall k | 0 <= k < |parts| :: sep !in parts[k]
    decreases |s|
  {
    var i := IndexOf(s, sep);
    if i == |s| then
      assert s[..i] == s;
      [s]
    else
      [s[..i]] + Split(s[i + 1..], sep)
  }

  /** A text with a separator splits into the field before it and the rest's fields. */
  lemma {:induction false} SplitAt(s: string, sep: char)
    requires IndexOf(s, sep) < |s|
    ensures var i := IndexOf(s, sep);
      s == s[..i] + [sep] + s[i + 1..] && Split(s, sep) == [s[..i]] + Split(s[i + 1..], sep)
  {
    var i := IndexOf(s, sep);
    assert s == s[..i] + s[i..];
  }

  lemma {:induction false} JoinSplit(s: string, sep: char)
    ensures Join(Split(s, sep), sep) == s
    decreases |s|
  {
    var i := IndexOf(s, sep);
    if i < |s| {
      JoinSplit(s[i + 1..], sep);
      assert s == s[..i] + [sep] + s[i + 1..];
    }
  }

  /** Fields without the separator are recovered by splitting their join. */
  lemma {:induction false} SplitJoin(parts: seq<string>, sep: char)
    requires |parts| >= 1
    requires forall k | 0 <= k < |parts| :: sep !in parts[k]
    ensures Split(Join(parts, sep), sep) == parts
    decreases |parts|
  {
    var s := Join(parts, sep);
    if |parts| == 1 {
      IndexOfAbsent(s, sep);
      assert parts == [s];
      assert Split(s, sep) == [s];
    } else {
      var rest := Join(parts[1..], sep);
      assert s == parts[0] + [sep] + rest;
      IndexOfAfter(parts[0], sep, rest);
      assert s[..|parts[0]|] == parts[0];
      assert s[|parts[0]| + 1..] == rest;
      SplitJoin(parts[1..], sep);
      assert parts == [parts[0]] + parts[1..];
    }
  }

  lemma {:induction false} IndexOfAbsent(s: string, c: char)
    requires c !in s
    ensures IndexOf(s, c) == |s|
    decreases |s|
  {
    if |s| > 0 {
      IndexOfAbsent(s[1..], c);
    }
  }

  lemma {:induction false} IndexOfAfter(a: string, c: char, t: string)
    requires c !in a
    ensures IndexOf(a + [c] + t, c) == |a|
    decreases |a|
  {
    if |a| > 0 {
      assert (a + [c] + t)[1..] == a[1..] + [c] + t;
      IndexOfAfter(a[1..], c, t);
    }
  }

  lemma {:induction false} JoinConcat(a: seq<string>, b: seq<string>, sep: char)
    requires |a| >= 1 && |b| >= 1
    ensures Join(a + b, sep) == Join(a, sep) + [sep] + Join(b, sep)
    decreases |a|
  {
    if |a| == 1 {
      assert (a + b)[1..] == b;
    } else {
      assert (a + b)[1..] == a[1..] + b;
      JoinConcat(a[1..], b, sep);
    }
  }

  /** `char.IsWhiteSpace`: the Unicode space separators plus the control whitespace. */
  predicate IsWhiteSpace(c: char) {
    || '\t' <= c <= '\r'
    || c == ' ' || c == '\U{0085}' || c == '\U{00A0}' || c == '\U{1680}'
    || '\U{2000}' <= c <= '\U{200A}'
    || c == '\U{2028}' || c == '\U{2029}' || c == '\U{202F}' || c == '\U{205F}' || c == '\U{3000}'
  }

  /** The first index from `i` on that does not hold white space, or `|s|`. */
  function SkipWhite(s: string, i: nat): (j: nat)
    requires i <= |s|
    ensures i <= j <= |s|
    ensures forall k | i <= k < j :: IsWhiteSpace(s[k])
    ensures j < |s| ==> !IsWhiteSpace(s[j])
    decreases |s| - i
  {
    if i < |s| && IsWhiteSpace(s[i]) then SkipWhite(s, i + 1) else i
  }

  /** The end of `s[lo..j]` once its trailing white space is dropped. */
  function BackWhite(s: string, lo: nat, j: nat): (k: nat)
    requires lo <= j <= |s|
    ensures lo <= k <= j
    ensures forall m | k <= m < j :: IsWhiteSpace(s[m])
    ensures k > lo ==> !IsWhiteSpace(s[k - 1])
    decreases j
  {
    if j > lo && IsWhiteSpace(s[j - 1]) then BackWhite(s, lo, j - 1) else j
  }

  /** `s.Trim()`: drops leading and trailing white space. */
  function Trim(s: string): (r: string)
    ensures |r| <= |s|
    ensures |r| > 0 ==> !IsWhiteSpace(r[0]) && !IsWhiteSpace(r[|r| - 1])
  {
    var a := SkipWhite(s, 0);
    var b := BackWhite(s, a, |s|);
    assert b > a ==> !IsWhiteSpace(s[a]);
    s[a..b]
  }

  /** Trim keeps exactly the middle of `s` between its white-space margins. */
  lemma {:induction false} TrimIsInfix(s: string)
    ensures var r := Trim(s); var i := SkipWhite(s, 0);
      && i + |r| <= |s|
      && r == s[i..i + |r|]
      && (forall k | 0 <= k < i :: IsWhiteSpace(s[k]))
      && (forall k | i + |r| <= k < |s| :: IsWhiteSpace(s[k]))
  {
  }

  /** Trimming is empty exactly when every character is white space. */
  lemma {:induction false} TrimEmpty(s: string)
    ensures Trim(s) == "" <==> forall k | 0 <= k < |s| :: IsWhiteSpace(s[k])
  {
    TrimIsInfix(s);
    if Trim(s) != "" {
      assert s[SkipWhite(s, 0)] == Trim(s)[0];
    }
  }

  lemma {:induction false} TrimIdempotent(s: string)
    ensures Trim(Trim(s)) == Trim(s)
  {
    var r := Trim(s);
    if |r| > 0 {
      TrimUntouched(r);
    }
  }

  /** A text with no white space at either end is its own trimming. */
  lemma {:induction false} TrimUntouched(s: string)
    requires |s| > 0 && !IsWhiteSpace(s[0]) && !IsWhiteSpace(s[|s| - 1])
    ensures Trim(s) == s
  {
    assert SkipWhite(s, 0) == 0;
    assert BackWhite(s, 0, |s|) == |s|;
    assert s[0..|s|] == s;
  }

  /** Trimming drops one final newline after a text with no white space at either end. */
  lemma {:induction false} TrimDropsNewline(s: string)
    requires |s| > 0 && !IsWhiteSpace(s[0]) && !IsWhiteSpace(s[|s| - 1])
    ensures Trim(s + "\n") == s
  {
    var t := s + "\n";
    assert t[0] == s[0];
    assert SkipWhite(t, 0) == 0;
    assert t[|t| - 1] == '\n' && t[|s| - 1] == s[|s| - 1];
    assert BackWhite(t, 0, |t|) == BackWhite(t, 0, |s|) == |s|;
    assert t[0..|s|] == s;
  }
}
